=== FILE: README.md ===
# Matrix multiplication benchmark — a Dafny model

The benchmark times one square matrix multiplication per requested size on
the CPU and, when CUDA is present, on the GPU. It writes the timings as a
fixed-width text report, either to a local results directory or to an
S3-compatible bucket, and shows the same table on the console. This project
models the parts of that program that decide what happens:

- `Cli` (`cli_operations.py`): parsing `--matrix-sizes` and `MATRIX_SIZES`,
  the precedence command line > environment > defaults, the configuration
  panel, and the coloured results table.
- `MatrixHelper` (`matrix_helper.py`): the device description, the CUDA
  guard of the GPU multiply, and the loop of `run_comparison` that builds one
  record per size. Each iteration also records the device calls it makes
  (CPU multiply, GPU multiply, `empty_cache`), in order.
- `Report` (`main.py`): the report file name and path, the report layout,
  reading the written report back, and the console summary.
- `S3Operations` (`s3_operations.py`): counting `.txt` reports in a listing,
  and the key, body and URI of an uploaded report.
- `ConfigHandler` (`config/config.py`): loading the four required
  variables, fail-fast validation with its message, and the accessors.
- `Text`, `Numerals` and `Wrappers` hold the Python built-ins these files
  rely on: `str.split`, `str.strip`, `', '.join`, `format(s, "^12")`,
  `int()` and `str(int)`, plus `Option` and `Result`.

The timings come from an oracle `measure: Pass -> Result<real, string>`. A
pass is an iteration, a size and a device, and the oracle yields the elapsed
seconds or the message of the exception the pass raised. Float rendering
(`:.6f`, `:.2f`) is an uninterpreted `Formatter`. The lemmas that read a
report back assume only `WellFormed(fmt)`: every rendering is a non-empty run
of digits, sign, point and the letters of `inf`/`nan`. The clock, the
environment and the storage service's answers are parameters.

Some behaviour of the code is easy to miss, and the model keeps it as
written:

- The sizes parser has no positivity check. `int()` accepts `0`, negative
  numbers, a leading `+`, and single underscores between digits (`1_000`), so
  the parser accepts them too (`Cli.AnyIntegerAccepted`,
  `Numerals.UnderscoreGrouping`).
- The header row of the table is 57 characters wide, but the dashed divider
  under it is `"-" * 55` (`Report.HeaderLayout`).
- `if env_sizes:` treats an empty `MATRIX_SIZES` as unset, so it gives the
  defaults. An empty `--matrix-sizes` goes through `parse_matrix_sizes` and is
  refused (`Cli.EmptyValues`).
- A pass that raises inside `run_comparison` is not caught there. The run ends
  with that exception's own message, which does not name the size
  (`MatrixHelper.RunComparison`).

## Model

| member | source | states |
|---|---|---|
| Text.Split | cli_operations/cli_operations.py:21 | `str.split` at one character: one more part than there are separators, and no part contains the separator |
| Text.SplitJoin | cli_operations/cli_operations.py:21 | splitting the join of separator-free parts at that separator gives back exactly those parts |
| Text.JoinSplit | cli_operations/cli_operations.py:21 | joining the parts of any split with the separator rebuilds the original string |
| Text.Join | cli_operations/cli_operations.py:57 | `delimiter.join(parts)`; splitting undoes it (`Text.SplitJoin`, `Text.JoinSplit`) |
| Text.Strip | cli_operations/cli_operations.py:21 | `str.strip`: the result has no whitespace at either end and is never longer than the input |
| Text.StripTrims | cli_operations/cli_operations.py:21 | stripping is the same as removing leading whitespace and then trailing whitespace |
| Text.StripPadded | cli_operations/cli_operations.py:21 | stripping text that is padded with whitespace recovers the trimmed text inside, whatever the padding |
| Text.Center | main.py:25 | `format(s, "^w")` is never shorter than `s` or `w`; `s` sits after floor(slack/2) padding characters, and every padding character on either side is a plain space |
| Text.CenterStrip | main.py:32 | stripping a centred trimmed cell recovers the cell |
| Text.SplitUnlines | main.py:14-32 | reading lines written each with a trailing line feed, split at line feeds, gives the lines and then one empty remainder |
| Numerals.ParseInt | cli_operations/cli_operations.py:21 | `int()` refuses empty text and text containing whitespace; a run of plain digits denotes its decimal value; accepted text ends in a digit |
| Numerals.ParseIntGrammar | cli_operations/cli_operations.py:21 | `int()` accepts a text exactly when it is an optional `+` or `-` followed by a run of digits with single underscores between digits |
| Numerals.ParseIntValue | cli_operations/cli_operations.py:21 | the value read is the run's decimal value, unchanged after `+` and negated after `-` |
| Numerals.IntToString | cli_operations/cli_operations.py:57 | `str(n)` is non-empty, has no outer whitespace, consists of digits after an optional leading '-', and `int()` reads it back as `n` |
| Numerals.IntToStringCanonical | cli_operations/cli_operations.py:57 | `str(n)` starts with '-' exactly for negative `n`, and its digits are those of the magnitude with no leading zero unless the text is "0" |
| Numerals.UnderscoreGrouping | cli_operations/cli_operations.py:21 | `int()` takes single underscores between digits (`1_000`, `-2_5`) and refuses doubled, leading or trailing ones |
| Cli.ParseTokens | cli_operations/cli_operations.py:21 | the token list parses exactly when every stripped token is an integer, and then yields the integers the tokens denote, in order |
| Cli.ParseMatrixSizes | cli_operations/cli_operations.py:16-23 | success exactly when every comma-separated token is an integer once stripped; the sizes are those tokens' values in order, one more than the commas; every refusal carries the single parser message |
| Cli.EmptyTokensRejected | cli_operations/cli_operations.py:16-23 | an empty token refuses the whole string: two adjacent commas, a comma at either end, or the empty string |
| Cli.ParsesTo | cli_operations/cli_operations.py:16-23 | a string whose tokens denote given sizes parses to exactly those sizes |
| Cli.PaddedValue | cli_operations/cli_operations.py:21 | an integer's text with whitespace around it is one token, with no comma, denoting that integer |
| Cli.PaddingIgnored | cli_operations/cli_operations.py:21 | tokens that are whitespace-padded integer texts, joined by commas, parse to those integers |
| Cli.PaddedExample | cli_operations/cli_operations.py:31-35 | the comma-separated sizes format with blanks around the values, `" 1000 , 2000"`, parses to `[1000, 2000]` |
| Cli.AnyIntegerAccepted | cli_operations/cli_operations.py:21 | every integer, zero and negatives included, is accepted as a one-size list |
| Cli.RoundTrip | cli_operations/cli_operations.py:57 | the `", "`-joined sizes the panel shows parse back to the same sizes |
| Cli.SizesText | cli_operations/cli_operations.py:57 | `', '.join(map(str, sizes))`; for a non-empty list it parses back to the same sizes (`Cli.RoundTrip`) |
| Cli.GetMatrixSizes | cli_operations/cli_operations.py:26-49 | a given `--matrix-sizes` decides alone; otherwise a non-empty MATRIX_SIZES decides; otherwise the defaults 1000, 2000, 3000. Each choice carries its source label. A bad value fails with the parser message, and any success lists at least one size |
| Cli.Label | cli_operations/cli_operations.py:40-49 | the source wording `get_matrix_sizes` returns: "command line", "environment variable", "default values"; which one is returned is stated by `Cli.GetMatrixSizes` and `Cli.CommandLineWins` |
| Cli.CommandLineWins | cli_operations/cli_operations.py:38-40 | with a command-line value, the environment has no influence on the result, and a success is labelled "command line" |
| Cli.EmptyValues | cli_operations/cli_operations.py:43-49 | an empty MATRIX_SIZES behaves as an unset one and gives the defaults, while an empty `--matrix-sizes` is refused |
| Cli.ConfigurationReadBack | cli_operations/cli_operations.py:52-60 | the panel's sizes line, passed back as `--matrix-sizes`, reproduces the same sizes with source "command line" |
| Cli.ConfigurationLines | cli_operations/cli_operations.py:52-60 | the panel text: heading, blank line, source, sizes; its sizes line replays to the same sizes (`Cli.ConfigurationReadBack`) |
| Cli.SpeedupColour | cli_operations/cli_operations.py:74-79 | bright green exactly above 2, green exactly in (1, 2], yellow for a missing speedup or one at most 1 (zero is false in Python) |
| Cli.ResultRowText | cli_operations/cli_operations.py:81-86 | a coloured row shows the report's row text, and its coloured part is the centred speedup cell |
| Cli.RowMatches | cli_operations/cli_operations.py:70-86 | a console row is coloured by its record's speedup, shows the report row's text, and reads back to the record's cells |
| Cli.ResultRow | cli_operations/cli_operations.py:81-86 | a console row shows the report's row text with its speedup cell coloured by `SpeedupColour` (`Cli.ResultRowText`, `Cli.RowMatches`) |
| Cli.DisplayHead | cli_operations/cli_operations.py:65-68 | the console table starts like the printed summary, with '─' rules of the same length where the summary has '-' rules |
| Cli.DisplayRows | cli_operations/cli_operations.py:70-86 | each console row after the heading matches the summary's row text, is coloured by its speedup, and reads back to its record's cells |
| Cli.DisplayMatchesSummary | cli_operations/cli_operations.py:63-86 | the whole coloured table shows the summary of `main.py` line for line, apart from the rule characters, with one coloured row per record |
| Cli.DisplayResults | cli_operations/cli_operations.py:63-86 | the coloured table equals the printed summary line for line apart from the rule characters (`Cli.DisplayMatchesSummary`) |
| MatrixHelper.GetDeviceInfo | matrix_helper.py:22-33 | without CUDA, a single entry naming the CPU. With CUDA, four entries in fixed order: the device name, the count as `str(device_count)`, and the allocated and reserved bytes divided by 1024² and rendered with two decimals, each followed by " MB" |
| MatrixHelper.MultiplyGpu | matrix_helper.py:35-40 | without CUDA the GPU multiply fails with "CUDA is not available on this system" before any work; with CUDA it is the timed pass |
| MatrixHelper.MeasureSize | matrix_helper.py:77-96 | an iteration succeeds exactly when the CPU pass does and, with CUDA, the GPU pass too. A failure carries the first failing pass's message. The record keeps the size and CPU time, and has a GPU time exactly when CUDA is available |
| MatrixHelper.MeasuredSpeedup | matrix_helper.py:91-96 | every record has a speedup exactly when its GPU time exists and is positive, and then speedup × GPU time = CPU time |
| MatrixHelper.SpeedupExample | matrix_helper.py:95 | CPU times 1, 2, 3 s with GPU times 0.5, 0, 1.5 s give speedups 2, none, 2 |
| MatrixHelper.MeasureStep | matrix_helper.py:77-99 | one loop iteration computes the record of `MeasureSize`, and its device calls are exactly the iteration block: the CPU multiply; on CUDA after a returning CPU pass, the GPU multiply; on CUDA after both return, `empty_cache` |
| MatrixHelper.UntouchedConcat | matrix_helper.py:87-89 | a stretch of device calls avoids the GPU exactly when both of its parts do |
| MatrixHelper.ReleasesConcat | matrix_helper.py:98-99 | cache releases add up over consecutive stretches of device calls |
| MatrixHelper.IterationReleases | matrix_helper.py:83-99 | an iteration's block releases the cache once exactly when CUDA is on and the iteration succeeds, and touches no GPU without CUDA |
| MatrixHelper.LogReleases | matrix_helper.py:77-99 | over iterations that all succeed, the cache is released once per iteration with CUDA; without CUDA never, and the GPU is never called |
| MatrixHelper.FailedIteration | matrix_helper.py:77-99 | when iteration i is the first to fail, the cache was released i times with CUDA and never without it |
| MatrixHelper.RunComparison | matrix_helper.py:70-101 | success exactly when every size's iteration succeeds: then one record per size, in order, the device information taken once, and the device calls are the iteration blocks of all sizes in order. A failure reports the first failing size's message after all earlier sizes succeeded, and the device calls are the blocks up to and including the failing one |
| Report.FileName | main.py:12 | the file name is `matrix_multiplication_benchmark_`, the timestamp, `.txt`, and the timestamp can be cut back out |
| Report.PathJoin | main.py:12 | POSIX `os.path.join`: an absolute name replaces the directory; otherwise the path is the directory, a '/' unless the directory is empty or already ends in one, and the name |
| Report.FileNameRelative | main.py:12 | a report's file name never starts with '/', so `os.path.join` keeps the results directory in front of it |
| Report.FileStaysInDirectory | main.py:10-12 | for a timestamp without '/', as `strftime("%Y%m%d_%H%M%S")` renders it, the file name is a single path component: the whole path when RESULTS_DIR is empty, and otherwise placed after the directory and a '/' |
| Report.SaveResults | main.py:6-34 | the report goes to `os.path.join` of RESULTS_DIR (or `results` when unset) and the timestamped file name; with an empty RESULTS_DIR the path is the bare file name. Its content is the report text |
| Report.CenteredTitles | main.py:25 | the four column titles centre to "Matrix Size ", "CPU Time (s)", "GPU Time (s)", "  Speedup   " |
| Report.HeaderLayout | main.py:25-26 | the header row is 57 characters wide while the divider under it is 55 |
| Report.HeaderSingleLine | main.py:25 | the header row holds no line feed |
| Report.ReadTableLine | main.py:32 | a table line of readable cells, split at the bar character and stripped, gives back exactly its cells, and holds no line feed |
| Report.CellsReadable | main.py:29-32 | every cell of a record's row is trimmed and free of the bar character and of line feeds |
| Report.CellContents | main.py:29-32 | the size cell reads back as the size; the GPU cell is "N/A" exactly when there is no GPU time, and the speedup cell exactly when there is no speedup |
| Report.ReadRow | main.py:29-32 | a record's row reads back to its four cells: the size, the CPU time, the GPU time or "N/A", the speedup with an 'x' or "N/A" |
| Report.Cells | main.py:29-32 | a row's four cells; what they hold is stated by `Report.CellContents` |
| Report.RowText | main.py:32 | a row's text; it reads back to its cells (`Report.ReadRow`) |
| Report.ReportLinesReadable | main.py:16-32 | when no device key or value holds a line feed, every report line is a single line |
| Report.ReadReport | main.py:14-32 | the written report read back line by line: the title block, one "key: value" line per device entry in order, the results heading, the header row and the 55-dash divider, one readable row per record in order, and an empty remainder |
| Report.DeviceLinesRead | main.py:19-20 | the device section is the single CPU-only line without CUDA; with CUDA it starts with the device name, and the count line reads back as the device count |
| Report.ReportLines | main.py:14-32 | the report's lines; written and read back they give the layout of `Report.ReadReport` |
| Report.ReportText | main.py:14-32 | each report line followed by a line feed; split at line feeds it gives the lines back (`Report.ReportSplits`) |
| Report.SummaryMatchesReport | main.py:51-58 | from the header row on, the printed summary equals the saved report's table, line for line |
| Report.SummaryLines | main.py:51-58 | the printed summary; from the header row on it is the report's table (`Report.SummaryMatchesReport`) |
| ConfigHandler.LoadLookup | config/config.py:16-21 | `self.config[k]` is `os.getenv(k)` for each of the four required names, and no other key is in the dictionary |
| ConfigHandler.MissingKeys | config/config.py:26 | a key is reported missing exactly when its value is unset |
| ConfigHandler.MissingKeysInOrder | config/config.py:26 | the missing keys match the unset entries one to one, in increasing position |
| ConfigHandler.NewConfigHandler | config/config.py:10-30 | construction fails exactly when one of the four variables is unset, with the prefix and the `", "`-joined missing keys; otherwise the settings hold the environment's values |
| ConfigHandler.EmptyValuesPass | config/config.py:26 | only unset variables count as missing: four empty values pass validation |
| ConfigHandler.ListedKeys | config/config.py:28 | the `", "`-joined missing keys, split at commas, give back each key, with a leading blank on all but the first |
| ConfigHandler.MissingMessage | config/config.py:25-28 | the failure message starts with the fixed prefix. Read back after the prefix, it lists at least one key, exactly the unset keys, in configuration order |
| ConfigHandler.AwsCredentials | config/config.py:32-38 | the credentials are exactly `aws_endpoint_url`, `aws_access_key_id` and `aws_secret_access_key` with the endpoint, key id and secret, in that order; the bucket is not among them |
| ConfigHandler.AccessorsReadEnvironment | config/config.py:32-42 | the accessors hand back the environment's values unchanged, under the names the storage client expects |
| ConfigHandler.S3Bucket | config/config.py:40-42 | the bucket read from S3_BUCKET (`ConfigHandler.AccessorsReadEnvironment`) |
| S3Operations.CountSuffix | s3_operations/s3_operations.py:41-43 | the count equals the number of positions whose key ends in the suffix; hence at most the number of keys, zero exactly when no key ends in it, and all exactly when every key does |
| S3Operations.CountTxtFiles | s3_operations/s3_operations.py:25-46 | a failed listing or one without `Contents` counts 0; otherwise the count is the number of listed keys ending in `.txt` |
| S3Operations.CountAppend | s3_operations/s3_operations.py:41-43 | one more listed key adds one to the count exactly when it ends in `.txt` |
| S3Operations.MatchesAppend | s3_operations/s3_operations.py:41-43 | one more key adds one matching position exactly when it ends in the suffix |
| S3Operations.AfterPut | s3_operations/s3_operations.py:80-84 | after a put the listing holds the old keys and the new one; a put under an existing key leaves the listing as it was |
| S3Operations.SaveResults | s3_operations/s3_operations.py:48-87 | an upload fails exactly when the storage call fails, with its error. Otherwise the key is `benchmark_results/` plus the report's file name, the URI is `s3://<bucket>/` plus the key, and the body is the report text |
| S3Operations.ObjectKey | s3_operations/s3_operations.py:82 | the object key; it is `benchmark_results/` followed by the report's file name (`S3Operations.SaveResults`) |
| S3Operations.UploadIsCounted | s3_operations/s3_operations.py:25-87 | an empty folder counts 0 and one upload into it counts 1; an upload adds one to the count unless an object under the same key (a report of the same second) is overwritten, which leaves the count unchanged |
| S3Operations.SinksAgree | s3_operations/s3_operations.py:59-78 | the bucket and the local file receive the same report text under the same file name |
| S3Operations.UriSegments | s3_operations/s3_operations.py:82-87 | for a bucket and timestamp without '/', the returned URI's path segments are the bucket, `benchmark_results` and the file name |

## Left out

- The matrix multiplications themselves are not modelled: random matrices, float32 tensors, device transfer, `torch.mm`, `torch.cuda.synchronize` and `time.perf_counter`. They are the `measure` oracle, because they are numeric work and clock readings the model cannot state anything about.
- `matrix_multiply_cpu` is the CPU case of the `measure` oracle, for the same reason.
- Float formatting (`:.6f`, `:.2f`) is left uninterpreted as `Formatter`, because Dafny has no floating point. Only the character set of a rendering is assumed. The division `/ 1024**2` is modelled as exact real division, which matches the floating-point result for byte counts below 2^53.
- The CUDA runtime queries (`is_available`, `get_device_name`, `device_count`, `memory_allocated`, `memory_reserved`) are parameters (`cuda` and a `DeviceProbe`), because they are foreign calls.
- Console decoration is left out, because it carries no data: the `print` progress messages, the "Config validated successfully!" message printed after validation (config/config.py:30), the rich markup tags, the panel title "Configuration", its border and style, and the rich colour names of the header and columns. The console text and the colour of each speedup cell are kept.
- File I/O is not modelled: `os.makedirs`, `open` and `write` become a `SavedFile` value with path and content, because the filesystem is outside the model.
- `datetime.now().strftime` is not modelled: the timestamp is a parameter, because it is a clock reading.
- `os.getenv` and `load_dotenv` are not modelled: the environment is a lookup function or an optional string, because `.env` loading is I/O.
- boto3 is not modelled. The client construction, the network and `list_objects_v2` paging (at most 1000 keys per response) are left out, because they are a foreign service. A listing arrives as a `ListResponse`, and an upload failure arrives as an optional error.
- `S3Operations.UploadIsCounted`: the count is taken over the whole listing, so the lemma holds in the program only while the folder fits in one `list_objects_v2` page of 1000 keys. Beyond that the one call returns the first 1000 keys in key order, and a newer report, which sorts last, is not counted.
- The printed error in `count_txt_files` is left out. Its return value, 0, is modelled.
- argparse is not modelled: its own errors, the help text, and the exit with status 2 after a bad `--matrix-sizes`. Both sources fail with the same parser message as a `Failure`, because process exit is outside the model.
- The module-level `config = ConfigHandler()` is not modelled as a separate step, because it is `NewConfigHandler` applied to the process environment at import time.
- `Text.Strip`: only ASCII whitespace is modelled. Unicode whitespace (U+0085, U+00A0, U+2000 and similar), which `str.strip` also removes, is left out, because there is no Unicode table here.
- `Numerals.ParseInt`: only ASCII digits are modelled. Unicode decimal digits, which `int()` also accepts, are left out for the same reason.
- `Numerals.ParseInt`: CPython's default limit of 4300 digits on `int()` and `str()` conversion (`sys.int_info.default_max_str_digits`) is not modelled, because integers here are unbounded. A longer digit run raises `ValueError` in the program but is read here. `Cli.AnyIntegerAccepted`, `Numerals.IntToString` and `Cli.RoundTrip` therefore hold in the program only for integers of at most 4300 digits.
- `MatrixHelper.GetDeviceInfo`: the memory entries are stated through the uninterpreted two-decimal `Formatter`, so the contract fixes the division by 1024² and the " MB" suffix but not the digits of the rendering.
- `MatrixHelper.MeasuredSpeedup`: times are reals and the speedup is the exact quotient of CPU time by GPU time, while the program rounds `cpu_time / gpu_time` to the nearest double. So "speedup × GPU time = CPU time" holds in the program only up to that one rounding, and the program's speedup can differ from the exact quotient by up to half a unit in the last place. Rounding a quotient is monotone, so the `gpu_time > 0` guard and the colour thresholds 1 and 2 classify the same in both.
- `MatrixHelper.MeasureSize`: the speedup rule is stated by `MatrixHelper.MeasuredSpeedup` rather than in its own contract, because stating real division in every use of the function makes the loop proof expensive. The promise is the same.
- `main()` is not modelled as a whole. It uses the fixed sizes 1000, 2000, 3000 and prints the start banner and the saved path. Its saving and summary steps are modelled as `Report.SaveResults` and `Report.SummaryLines`.
- The default size list of `run_comparison`, `[1000, 2000, 3000, 4000]`, is not modelled, because every caller passes sizes explicitly.

=== FILE: cli.dfy ===
/** The command-line front end of `cli_operations.py`: parsing the list of
    matrix sizes, choosing where the sizes come from, and the text of the
    configuration panel and of the coloured results table. The argument vector
    and the environment arrive as optional strings; rich's rendering is
    modelled by the text it shows, with the colour of each speedup cell kept
    beside it. */
module Cli {
  import opened Wrappers
  import opened Text
  import opened Numerals
  import opened MatrixHelper
  import Report

  const SizesError := "Matrix sizes must be comma-separated integers"
  const DefaultSizes: seq<int> := [1000, 2000, 3000]
  const SizesLabel := "Matrix sizes: "
  const SourceLabel := "Matrix sizes source: "
  const PanelHeading := "Matrix Multiplication Benchmark Configuration"

  /** `int(token.strip())`. */
  function TokenValue(token: string): Option<int> {
    ParseInt(Strip(token))
  }

  /** Every token is an integer once stripped. */
  predicate AllAccepted(tokens: seq<string>) {
    forall i :: 0 <= i < |tokens| ==> TokenValue(tokens[i]).Some?
  }

  /** `values` are the integers the tokens denote, in order. */
  predicate Denotes(tokens: seq<string>, values: seq<int>) {
    |values| == |tokens| && forall i :: 0 <= i < |tokens| ==> TokenValue(tokens[i]) == Some(values[i])
  }

  /** `int(t.strip())` for every token, or `None` as soon as one is refused. */
  function ParseTokens(tokens: seq<string>): (r: Option<seq<int>>)
    ensures r.Some? <==> AllAccepted(tokens)
    ensures r.Some? ==> Denotes(tokens, r.value)
    decreases |tokens|
  {
    if |tokens| == 0 then Some([])
    else
      var head := TokenValue(tokens[0]);
      var tail := ParseTokens(tokens[1..]);
      assert forall i :: 1 <= i < |tokens| ==> tokens[i] == tokens[1..][i - 1];
      if head.Some? && tail.Some? then Some([head.value] + tail.value) else None
  }

  /** `parse_matrix_sizes`: every comma-separated token, stripped, must be an
      integer; otherwise the whole string is refused with one message. */
  function ParseMatrixSizes(s: string): (r: Result<seq<int>, string>)
    ensures r.Success? <==> AllAccepted(Split(s, ','))
    ensures r.Success? ==> Denotes(Split(s, ','), r.value) && |r.value| == Occurrences(s, ',') + 1
    ensures r.Failure? ==> r.error == SizesError
  {
    var parsed := ParseTokens(Split(s, ','));
    if parsed.Some? then Success(parsed.value) else Failure(SizesError)
  }

  /** An empty token is refused: two adjacent commas, a comma at either end,
      or nothing at all. */
  lemma EmptyTokensRejected(a: string, b: string)
    ensures ParseMatrixSizes(a + ",," + b).Failure?
    ensures ParseMatrixSizes(a + ",").Failure?
    ensures ParseMatrixSizes("," + b).Failure?
    ensures ParseMatrixSizes("").Failure?
  {
    var empty := "";
    assert Strip(empty) == empty;
    SplitWithoutSeparator(empty, ',');
    assert a + ",," + b == a + [','] + (empty + [','] + b);
    SplitAppend(a, empty + [','] + b, ',');
    SplitAppend(empty, b, ',');
    assert Split(a + ",," + b, ',')[|Split(a, ',')|] == empty;
    assert a + "," == a + [','] + empty;
    SplitAppend(a, empty, ',');
    assert Split(a + ",", ',')[|Split(a, ',')|] == empty;
    assert "," + b == empty + [','] + b;
    assert Split("," + b, ',')[0] == empty;
  }

  /** A token that is an integer's text with whitespace around it. */
  ghost predicate PaddedInteger(token: string, n: int) {
    exists pre: string, post: string :: AllSpace(pre) && AllSpace(post) && token == pre + IntToString(n) + post
  }

  /** A string whose tokens denote `sizes` parses to exactly `sizes`. */
  lemma ParsesTo(s: string, sizes: seq<int>)
    requires Denotes(Split(s, ','), sizes)
    ensures ParseMatrixSizes(s) == Success(sizes)
  {
    var tokens := Split(s, ',');
    assert AllAccepted(tokens);
    var r := ParseMatrixSizes(s);
    assert Denotes(tokens, r.value);
    assert |r.value| == |sizes|;
    forall i | 0 <= i < |sizes|
      ensures r.value[i] == sizes[i]
    {
      assert TokenValue(tokens[i]) == Some(r.value[i]) && TokenValue(tokens[i]) == Some(sizes[i]);
    }
    assert r.value == sizes;
  }

  /** An integer's text with whitespace around it is one token of that integer. */
  lemma PaddedValue(pre: string, n: int, post: string)
    requires AllSpace(pre) && AllSpace(post)
    ensures ',' !in pre + IntToString(n) + post
    ensures TokenValue(pre + IntToString(n) + post) == Some(n)
  {
    StripPadded(pre, IntToString(n), post);
    ExcludesComma(pre);
    ExcludesComma(post);
    IntTextExcludesComma(n);
  }

  /** Whitespace around the numbers is ignored: tokens that are integer texts
      padded with whitespace parse to those integers. */
  lemma PaddingIgnored(tokens: seq<string>, sizes: seq<int>)
    requires |tokens| == |sizes| >= 1
    requires forall i :: 0 <= i < |tokens| ==> PaddedInteger(tokens[i], sizes[i])
    ensures ParseMatrixSizes(Join(tokens, ",")) == Success(sizes)
  {
    forall i | 0 <= i < |tokens|
      ensures ',' !in tokens[i] && TokenValue(tokens[i]) == Some(sizes[i])
    {
      var pre, post :| AllSpace(pre) && AllSpace(post) && tokens[i] == pre + IntToString(sizes[i]) + post;
      PaddedValue(pre, sizes[i], post);
    }
    SplitJoin(tokens, ',');
    ParsesTo(Join(tokens, ","), sizes);
  }

  lemma ExcludesComma(s: string)
    requires AllSpace(s)
    ensures ',' !in s
  {
    forall i | 0 <= i < |s|
      ensures s[i] != ','
    {
      assert IsSpace(s[i]);
    }
  }

  lemma IntTextExcludesComma(n: int)
    ensures ',' !in IntToString(n)
  {
    var t := IntToString(n);
    forall i | 0 <= i < |t|
      ensures t[i] != ','
    {
      assert IsDigit(t[i]) || t[i] == '-';
    }
  }

  /** The example of the help text, with blanks around the numbers. */
  lemma PaddedExample()
    ensures ParseMatrixSizes(" 1000 , 2000") == Success([1000, 2000])
  {
    var t0, t1 := " 1000 ", " 2000";
    var blank, none := " ", "";
    assert IntToString(1000) == "1000" && IntToString(2000) == "2000";
    assert AllSpace(blank) && AllSpace(none);
    assert t0 == blank + IntToString(1000) + blank;
    assert t1 == blank + IntToString(2000) + none;
    assert PaddedInteger(t0, 1000) && PaddedInteger(t1, 2000);
    assert Join([t0, t1], ",") == " 1000 , 2000";
    PaddingIgnored([t0, t1], [1000, 2000]);
  }

  /** Every integer, zero and negatives included, is accepted on its own. */
  lemma AnyIntegerAccepted(n: int)
    ensures ParseMatrixSizes(IntToString(n)) == Success([n])
  {
    var none := "";
    assert AllSpace(none);
    assert IntToString(n) == none + IntToString(n) + none;
    assert PaddedInteger(IntToString(n), n);
    assert Join([IntToString(n)], ",") == IntToString(n);
    PaddingIgnored([IntToString(n)], [n]);
  }

  /** `map(str, sizes)`. */
  function Texts(sizes: seq<int>): (texts: seq<string>)
    ensures |texts| == |sizes|
    ensures forall i :: 0 <= i < |sizes| ==> texts[i] == IntToString(sizes[i])
  {
    seq(|sizes|, i requires 0 <= i < |sizes| => IntToString(sizes[i]))
  }

  /** `', '.join(map(str, sizes))` as the configuration panel shows it. */
  function SizesText(sizes: seq<int>): string {
    Join(Texts(sizes), ", ")
  }

  /** The sizes the configuration panel lists parse back to the same sizes. */
  lemma RoundTrip(sizes: seq<int>)
    requires |sizes| >= 1
    ensures ParseMatrixSizes(SizesText(sizes)) == Success(sizes)
  {
    var texts := Texts(sizes);
    var none, blank := "", " ";
    forall i | 0 <= i < |texts|
      ensures ',' !in texts[i]
    {
      IntTextExcludesComma(sizes[i]);
    }
    assert ", " == none + [','] + blank;
    SplitJoinPadded(texts, none, ',', blank);
    var tokens := Pad(texts, none, blank);
    forall i | 0 <= i < |tokens|
      ensures TokenValue(tokens[i]) == Some(sizes[i])
    {
      var pre := if i == 0 then none else blank;
      assert AllSpace(pre) && AllSpace(none);
      assert tokens[i] == pre + IntToString(sizes[i]) + none;
      PaddedValue(pre, sizes[i], none);
    }
    ParsesTo(SizesText(sizes), sizes);
  }

  datatype SizesSource = CommandLine | EnvironmentVariable | DefaultValues

  /** The wording `get_matrix_sizes` returns for each source. */
  function Label(source: SizesSource): string {
    match source
    case CommandLine => "command line"
    case EnvironmentVariable => "environment variable"
    case DefaultValues => "default values"
  }

  datatype Selection = Selection(sizes: seq<int>, source: SizesSource)

  /** `get_matrix_sizes`: `--matrix-sizes` when given, else a non-empty
      MATRIX_SIZES, else the defaults. A value that does not parse ends the
      run with the parser's message; a given but empty `--matrix-sizes` is
      such a value, while an empty MATRIX_SIZES counts as unset. */
  function GetMatrixSizes(argument: Option<string>, environment: Option<string>): (r: Result<Selection, string>)
    ensures argument.Some? ==>
      && (r.Success? <==> ParseMatrixSizes(argument.value).Success?)
      && (r.Success? ==> r.value == Selection(ParseMatrixSizes(argument.value).value, CommandLine))
    ensures argument.None? && environment.Some? && environment.value != "" ==>
      && (r.Success? <==> ParseMatrixSizes(environment.value).Success?)
      && (r.Success? ==> r.value == Selection(ParseMatrixSizes(environment.value).value, EnvironmentVariable))
    ensures argument.None? && (environment.None? || environment.value == "") ==>
      r == Success(Selection(DefaultSizes, DefaultValues))
    ensures r.Failure? ==> r.error == SizesError
    ensures r.Success? ==> |r.value.sizes| >= 1
  {
    if argument.Some? then
      var sizes :- ParseMatrixSizes(argument.value);
      Success(Selection(sizes, CommandLine))
    else if environment.Some? && |environment.value| > 0 then
      var sizes :- ParseMatrixSizes(environment.value);
      Success(Selection(sizes, EnvironmentVariable))
    else
      Success(Selection(DefaultSizes, DefaultValues))
  }

  /** A command-line value decides alone: the environment is not consulted. */
  lemma CommandLineWins(argument: string, environment: Option<string>, other: Option<string>)
    ensures GetMatrixSizes(Some(argument), environment) == GetMatrixSizes(Some(argument), other)
    ensures GetMatrixSizes(Some(argument), environment).Success? ==>
      GetMatrixSizes(Some(argument), environment).value.source == CommandLine
  {
  }

  /** An empty MATRIX_SIZES is treated exactly like an unset one, while an
      empty `--matrix-sizes` is refused. */
  lemma EmptyValues()
    ensures GetMatrixSizes(None, Some("")) == GetMatrixSizes(None, None)
    ensures GetMatrixSizes(None, None) == Success(Selection(DefaultSizes, DefaultValues))
    ensures GetMatrixSizes(Some(""), None) == Failure(SizesError)
  {
    EmptyTokensRejected("", "");
  }

  /** The text of the configuration panel, without markup: a heading, a blank
      line, the source and the sizes. */
  function ConfigurationLines(sizes: seq<int>, source: SizesSource): seq<string> {
    [PanelHeading, "", SourceLabel + Label(source), SizesLabel + SizesText(sizes)]
  }

  /** The panel's last line reads back to the sizes it was shown for, so
      the sizes a run reports can be replayed through `--matrix-sizes`. */
  lemma ConfigurationReadBack(sizes: seq<int>, source: SizesSource)
    requires |sizes| >= 1
    ensures var lines := ConfigurationLines(sizes, source);
      && |lines| == 4
      && StartsWith(lines[3], SizesLabel)
      && ParseMatrixSizes(lines[3][|SizesLabel|..]) == Success(sizes)
      && GetMatrixSizes(Some(lines[3][|SizesLabel|..]), None) == Success(Selection(sizes, CommandLine))
  {
    var line := SizesLabel + SizesText(sizes);
    assert line[..|SizesLabel|] == SizesLabel;
    assert line[|SizesLabel|..] == SizesText(sizes);
    RoundTrip(sizes);
  }

  datatype Colour = Yellow | Green | BrightGreen

  /** The colour of a speedup cell. A missing speedup and a speedup of zero
      are both false in Python and leave the default yellow. */
  function SpeedupColour(speedup: Option<real>): (c: Colour)
    ensures c == BrightGreen <==> speedup.Some? && speedup.value > 2.0
    ensures c == Green <==> speedup.Some? && 1.0 < speedup.value <= 2.0
    ensures c == Yellow <==> speedup.None? || speedup.value <= 1.0
  {
    var truthy := speedup.Some? && speedup.value != 0.0;
    if truthy && speedup.value > 2.0 then BrightGreen
    else if truthy && speedup.value > 1.0 then Green
    else Yellow
  }

  /** A printed line: plain text, or a table row whose last cell `cell` is
      shown in `colour` after the uncoloured `lead`. */
  datatype ConsoleLine = Plain(text: string) | Row(lead: string, cell: string, colour: Colour)

  function Shown(line: ConsoleLine): string {
    match line
    case Plain(t) => t
    case Row(lead, cell, _) => lead + cell
  }

  const ConsoleRuleChar: char := '─'

  function ConsoleRule(): string {
    Repeat(ConsoleRuleChar, Report.DividerWidth)
  }

  /** One result row: the first three cells and their separators, then the
      coloured speedup cell. */
  function ResultRow(r: Record, fmt: Formatter): ConsoleLine {
    var cells := Report.CenterAll(Report.Cells(r, fmt));
    Row(cells[0] + Report.CellSeparator + cells[1] + Report.CellSeparator + cells[2] + Report.CellSeparator,
        cells[3], SpeedupColour(r.speedup))
  }

  /** `display_results`: the summary table with box-drawing rules and a
      coloured speedup column. */
  function DisplayResults(results: seq<Record>, fmt: Formatter): seq<ConsoleLine> {
    [Plain(""), Plain("Summary:"), Plain(ConsoleRule()), Plain(Report.HeaderRow()), Plain(ConsoleRule())]
    + seq(|results|, i requires 0 <= i < |results| => ResultRow(results[i], fmt))
  }

  lemma JoinFour(cells: seq<string>, sep: string)
    requires |cells| == 4
    ensures Join(cells, sep) == cells[0] + sep + cells[1] + sep + cells[2] + sep + cells[3]
  {
    var c3 := cells[1..][1..][1..];
    var c2 := cells[1..][1..];
    var c1 := cells[1..];
    assert c3 == [cells[3]] && c2 == [cells[2], cells[3]] && c1 == [cells[1], cells[2], cells[3]];
    assert Join(c3, sep) == cells[3];
    assert Join(c2, sep) == cells[2] + sep + cells[3];
    assert Join(c1, sep) == cells[1] + sep + (cells[2] + sep + cells[3]);
    assert Join(cells, sep) == cells[0] + sep + (cells[1] + sep + (cells[2] + sep + cells[3]));
  }

  /** A coloured row shows the same text as the report's row. */
  lemma ResultRowText(r: Record, fmt: Formatter)
    ensures Shown(ResultRow(r, fmt)) == Report.RowText(r, fmt)
    ensures ResultRow(r, fmt).cell == Center(Report.SpeedupCell(r, fmt), Report.CellWidth)
  {
    var cells := Report.CenterAll(Report.Cells(r, fmt));
    JoinFour(cells, Report.CellSeparator);
  }

  /** A coloured row shows the report's row text, coloured by its speedup,
      and reads back to the record's cells. */
  lemma RowMatches(r: Record, fmt: Formatter)
    requires WellFormed(fmt)
    ensures ResultRow(r, fmt).colour == SpeedupColour(r.speedup)
    ensures Shown(ResultRow(r, fmt)) == Report.RowText(r, fmt)
    ensures Report.ReadCells(Report.RowText(r, fmt)) == Report.Cells(r, fmt)
  {
    ResultRowText(r, fmt);
    Report.ReadRow(r, fmt);
  }

  /** The first five console lines: the blank line, the heading, the rules
      and the column titles. */
  lemma DisplayHead(results: seq<Record>, fmt: Formatter)
    ensures var shown := DisplayResults(results, fmt);
      var summary := Report.SummaryLines(results, fmt);
      && |shown| == |summary|
      && (forall i :: 0 <= i < 5 && i != 2 && i != 4 ==> Shown(shown[i]) == summary[i])
      && Shown(shown[2]) == ConsoleRule() && Shown(shown[4]) == ConsoleRule()
      && |ConsoleRule()| == |summary[2]| == |summary[4]|
  {
  }

  /** The console rows after the heading, one per record. */
  lemma DisplayRows(results: seq<Record>, fmt: Formatter)
    requires WellFormed(fmt)
    ensures var shown := DisplayResults(results, fmt);
      var summary := Report.SummaryLines(results, fmt);
      forall i :: 5 <= i < |shown| ==>
           && shown[i].Row?
           && Shown(shown[i]) == summary[i]
           && shown[i].colour == SpeedupColour(results[i - 5].speedup)
           && Report.ReadCells(Shown(shown[i])) == Report.Cells(results[i - 5], fmt)
  {
    var shown := DisplayResults(results, fmt);
    var summary := Report.SummaryLines(results, fmt);
    forall i | 5 <= i < |shown|
      ensures shown[i] == ResultRow(results[i - 5], fmt)
      ensures summary[i] == Report.RowText(results[i - 5], fmt)
      ensures Shown(shown[i]) == summary[i]
      ensures Report.ReadCells(Shown(shown[i])) == Report.Cells(results[i - 5], fmt)
    {
      RowMatches(results[i - 5], fmt);
    }
  }

  /** The coloured console table shows the text of the summary `main` prints,
      line for line, apart from the rules drawn with '─' instead of '-'; each
      row's speedup cell is coloured by its speedup, and the row reads back to
      the record's cells. */
  lemma DisplayMatchesSummary(results: seq<Record>, fmt: Formatter)
    requires WellFormed(fmt)
    ensures var shown := DisplayResults(results, fmt);
      var summary := Report.SummaryLines(results, fmt);
      && |shown| == |summary| == 5 + |results|
      && (forall i :: 0 <= i < |shown| && i != 2 && i != 4 ==> Shown(shown[i]) == summary[i])
      && Shown(shown[2]) == ConsoleRule() && Shown(shown[4]) == ConsoleRule()
      && |ConsoleRule()| == |summary[2]| == |summary[4]|
      && forall i :: 5 <= i < |shown| ==>
           && shown[i].Row?
           && shown[i].colour == SpeedupColour(results[i - 5].speedup)
           && Report.ReadCells(Shown(shown[i])) == Report.Cells(results[i - 5], fmt)
  {
    DisplayHead(results, fmt);
    DisplayRows(results, fmt);
  }
}

=== FILE: config.dfy ===
/** `ConfigHandler` of `config.py`: the four required environment variables,
    the fail-fast validation of their presence, and the accessors used to
    build the storage client. The environment is a lookup function. */
module ConfigHandler {
  import opened Wrappers
  import opened Text

  const RequiredKeys: seq<string> := ["S3_ENDPOINT_URL", "AWS_ACCESS_KEY_ID", "AWS_SECRET_ACCESS_KEY", "S3_BUCKET"]
  const MissingPrefix := "Missing required environment variables: "

  /** An insertion-ordered dictionary from variable name to its value, `None` when unset. */
  type Entries = seq<(string, Option<string>)>

  /** A configuration that passed validation. */
  datatype Settings = Settings(endpointUrl: string, accessKeyId: string, secretAccessKey: string, bucket: string)

  /** `self.config`: the required variables in their fixed order, each with
      the environment's value for it. */
  function Load(env: string -> Option<string>): (config: Entries)
    ensures |config| == |RequiredKeys|
    ensures forall i :: 0 <= i < |config| ==> config[i].0 == RequiredKeys[i]
    ensures forall i :: 0 <= i < |config| ==> config[i].1 == env(config[i].0)
  {
    seq(|RequiredKeys|, i requires 0 <= i < |RequiredKeys| => (RequiredKeys[i], env(RequiredKeys[i])))
  }

  /** Subscripting the dictionary: the value stored under `key`, if any. */
  function Lookup(config: Entries, key: string): Option<Option<string>>
    decreases |config|
  {
    if |config| == 0 then None
    else if config[0].0 == key then Some(config[0].1)
    else Lookup(config[1..], key)
  }

  ghost predicate DistinctKeys(config: Entries) {
    forall a, b :: 0 <= a < b < |config| ==> config[a].0 != config[b].0
  }

  /** In a dictionary without repeated keys every entry is found under its key. */
  lemma {:induction false} LookupEntry(config: Entries, i: nat)
    requires DistinctKeys(config) && i < |config|
    ensures Lookup(config, config[i].0) == Some(config[i].1)
    decreases i
  {
    if i > 0 {
      assert config[0].0 != config[i].0;
      assert DistinctKeys(config[1..]) by {
        forall a, b | 0 <= a < b < |config| - 1
          ensures config[1..][a].0 != config[1..][b].0
        {
          assert config[1..][a] == config[a + 1] && config[1..][b] == config[b + 1];
        }
      }
      LookupEntry(config[1..], i - 1);
      assert config[1..][i - 1] == config[i];
    }
  }

  /** A key no entry carries is not found. */
  lemma {:induction false} LookupAbsent(config: Entries, key: string)
    requires forall i :: 0 <= i < |config| ==> config[i].0 != key
    ensures Lookup(config, key).None?
    decreases |config|
  {
    if |config| > 0 {
      assert forall i :: 0 <= i < |config| - 1 ==> config[1..][i] == config[i + 1];
      LookupAbsent(config[1..], key);
    }
  }

  lemma RequiredKeysDistinct()
    ensures forall a, b :: 0 <= a < b < |RequiredKeys| ==> RequiredKeys[a] != RequiredKeys[b]
  {
    var k0, k1, k2, k3 := "S3_ENDPOINT_URL", "AWS_ACCESS_KEY_ID", "AWS_SECRET_ACCESS_KEY", "S3_BUCKET";
    assert RequiredKeys == [k0, k1, k2, k3];
    assert |k0| == 15 && |k1| == 17 && |k2| == 21 && |k3| == 9;
  }

  /** `self.config[k]` is `os.getenv(k)` for each of the four required
      variables, and the dictionary holds no other key. */
  lemma LoadLookup(env: string -> Option<string>, key: string)
    ensures Lookup(Load(env), key) == if key in RequiredKeys then Some(env(key)) else None
  {
    var config := Load(env);
    RequiredKeysDistinct();
    if key in RequiredKeys {
      var i :| 0 <= i < |RequiredKeys| && RequiredKeys[i] == key;
      LookupEntry(config, i);
    } else {
      LookupAbsent(config, key);
    }
  }

  /** The `missing` list of `_validate_config`: the keys whose value is `None`. */
  function MissingKeys(config: Entries): (missing: seq<string>)
    ensures |missing| <= |config|
    ensures forall k :: k in missing <==> exists i :: 0 <= i < |config| && config[i].0 == k && config[i].1.None?
    decreases |config|
  {
    if |config| == 0 then []
    else
      var rest := MissingKeys(config[1..]);
      assert forall i :: 1 <= i < |config| ==> config[i] == config[1..][i - 1];
      if config[0].1.None? then [config[0].0] + rest else rest
  }

  ghost predicate Increasing(indices: seq<nat>) {
    forall a, b :: 0 <= a < b < |indices| ==> indices[a] < indices[b]
  }

  /** `indices` picks out, in increasing order, exactly the entries whose
      value is `None`, and `missing` holds their keys in that order. */
  ghost predicate SelectsUnset(config: Entries, missing: seq<string>, indices: seq<nat>) {
    && |indices| == |missing|
    && Increasing(indices)
    && (forall j :: 0 <= j < |indices| ==> indices[j] < |config| && config[indices[j]].1.None? && missing[j] == config[indices[j]].0)
    && (forall i :: 0 <= i < |config| && config[i].1.None? ==> i in indices)
  }

  function Shift(indices: seq<nat>): (shifted: seq<nat>)
    ensures |shifted| == |indices|
    ensures forall j :: 0 <= j < |indices| ==> shifted[j] == indices[j] + 1
  {
    seq(|indices|, j requires 0 <= j < |indices| => indices[j] + 1)
  }

  /** Shifting every index past a new first entry keeps the selection. */
  lemma ShiftSelection(config: Entries, rest: seq<string>, tail: seq<nat>)
    requires |config| >= 1
    requires SelectsUnset(config[1..], rest, tail)
    ensures var shifted := Shift(tail);
      && |shifted| == |rest|
      && Increasing(shifted)
      && (forall j :: 0 <= j < |shifted| ==> 1 <= shifted[j] < |config| && config[shifted[j]].1.None? && rest[j] == config[shifted[j]].0)
      && (forall i :: 1 <= i < |config| && config[i].1.None? ==> i in shifted)
  {
    var shifted := Shift(tail);
    forall j | 0 <= j < |shifted|
      ensures 1 <= shifted[j] < |config| && config[shifted[j]].1.None? && rest[j] == config[shifted[j]].0
    {
      assert config[1..][tail[j]] == config[shifted[j]];
    }
    forall i | 1 <= i < |config| && config[i].1.None?
      ensures i in shifted
    {
      assert config[1..][i - 1] == config[i];
      var j :| 0 <= j < |tail| && tail[j] == i - 1;
      assert shifted[j] == i;
    }
  }

  lemma SelectFirst(config: Entries, rest: seq<string>, shifted: seq<nat>)
    requires |config| >= 1 && config[0].1.None?
    requires |shifted| == |rest| && Increasing(shifted)
    requires forall j :: 0 <= j < |shifted| ==> 1 <= shifted[j] < |config| && config[shifted[j]].1.None? && rest[j] == config[shifted[j]].0
    requires forall i :: 1 <= i < |config| && config[i].1.None? ==> i in shifted
    ensures SelectsUnset(config, [config[0].0] + rest, [0] + shifted)
  {
    var indices, missing := [0] + shifted, [config[0].0] + rest;
    forall a, b | 0 <= a < b < |indices|
      ensures indices[a] < indices[b]
    {
      if a > 0 {
        assert indices[a] == shifted[a - 1] && indices[b] == shifted[b - 1];
      }
    }
    forall j | 0 <= j < |indices|
      ensures indices[j] < |config| && config[indices[j]].1.None? && missing[j] == config[indices[j]].0
    {
      if j > 0 {
        assert indices[j] == shifted[j - 1] && missing[j] == rest[j - 1];
      }
    }
  }

  lemma SkipFirst(config: Entries, rest: seq<string>, shifted: seq<nat>)
    requires |config| >= 1 && config[0].1.Some?
    requires |shifted| == |rest| && Increasing(shifted)
    requires forall j :: 0 <= j < |shifted| ==> 1 <= shifted[j] < |config| && config[shifted[j]].1.None? && rest[j] == config[shifted[j]].0
    requires forall i :: 1 <= i < |config| && config[i].1.None? ==> i in shifted
    ensures SelectsUnset(config, rest, shifted)
  {
  }

  /** The missing keys keep the order of the configuration. */
  lemma {:induction false} MissingKeysInOrder(config: Entries)
    ensures exists indices :: SelectsUnset(config, MissingKeys(config), indices)
    decreases |config|
  {
    if |config| == 0 {
      var none: seq<nat> := [];
      assert SelectsUnset(config, MissingKeys(config), none);
    } else {
      MissingKeysInOrder(config[1..]);
      var rest := MissingKeys(config[1..]);
      var tail :| SelectsUnset(config[1..], rest, tail);
      ShiftSelection(config, rest, tail);
      var shifted := Shift(tail);
      if config[0].1.None? {
        assert MissingKeys(config) == [config[0].0] + rest;
        SelectFirst(config, rest, shifted);
        var indices: seq<nat> := [0] + shifted;
        assert SelectsUnset(config, MissingKeys(config), indices);
      } else {
        assert MissingKeys(config) == rest;
        SkipFirst(config, rest, shifted);
      }
    }
  }

  /** `ConfigHandler()`: fails with the list of unset variables when any of the
      four is unset; an empty value is present and passes. */
  function NewConfigHandler(env: string -> Option<string>): (r: Result<Settings, string>)
    ensures r.Failure? <==> exists i :: 0 <= i < |RequiredKeys| && env(RequiredKeys[i]).None?
    ensures r.Failure? ==> r.error == MissingPrefix + Join(MissingKeys(Load(env)), ", ")
    ensures r.Success? ==>
      && env("S3_ENDPOINT_URL") == Some(r.value.endpointUrl)
      && env("AWS_ACCESS_KEY_ID") == Some(r.value.accessKeyId)
      && env("AWS_SECRET_ACCESS_KEY") == Some(r.value.secretAccessKey)
      && env("S3_BUCKET") == Some(r.value.bucket)
  {
    var config := Load(env);
    var missing := MissingKeys(config);
    if |missing| > 0 then
      assert missing[0] in missing;
      Failure(MissingPrefix + Join(missing, ", "))
    else
      assert forall i :: 0 <= i < |RequiredKeys| ==> config[i].0 !in missing;
      Success(Settings(
        env(RequiredKeys[0]).value,
        env(RequiredKeys[1]).value,
        env(RequiredKeys[2]).value,
        env(RequiredKeys[3]).value))
  }

  /** `get_aws_credentials`: the endpoint, access key and secret under the
      keyword names the storage client takes, never the bucket. */
  function AwsCredentials(settings: Settings): (credentials: seq<(string, string)>)
    ensures credentials == [
      ("aws_endpoint_url", settings.endpointUrl),
      ("aws_access_key_id", settings.accessKeyId),
      ("aws_secret_access_key", settings.secretAccessKey)]
    ensures forall i :: 0 <= i < |credentials| ==> credentials[i].0 != "s3_bucket"
  {
    [ ("aws_endpoint_url", settings.endpointUrl),
      ("aws_access_key_id", settings.accessKeyId),
      ("aws_secret_access_key", settings.secretAccessKey) ]
  }

  /** `s3_bucket`: the bucket read from S3_BUCKET. */
  function S3Bucket(settings: Settings): string {
    settings.bucket
  }

  /** The accessors hand back the environment's values unchanged. */
  lemma AccessorsReadEnvironment(env: string -> Option<string>)
    requires NewConfigHandler(env).Success?
    ensures var settings := NewConfigHandler(env).value;
      && env("S3_BUCKET") == Some(S3Bucket(settings))
      && AwsCredentials(settings) == [
        ("aws_endpoint_url", env("S3_ENDPOINT_URL").value),
        ("aws_access_key_id", env("AWS_ACCESS_KEY_ID").value),
        ("aws_secret_access_key", env("AWS_SECRET_ACCESS_KEY").value)]
  {
  }

  /** Only an unset variable is missing: four empty values pass validation. */
  lemma EmptyValuesPass()
    ensures NewConfigHandler(_ => Some("")).Success?
  {
    var env: string -> Option<string> := _ => Some("");
    assert forall i :: 0 <= i < |RequiredKeys| ==> env(RequiredKeys[i]).Some?;
  }

  /** The failure message lists the unset variables, in the fixed order
      S3_ENDPOINT_URL, AWS_ACCESS_KEY_ID, AWS_SECRET_ACCESS_KEY, S3_BUCKET:
      reading the list back after the prefix recovers exactly those keys. */
  lemma MissingMessage(env: string -> Option<string>)
    requires NewConfigHandler(env).Failure?
    ensures var message := NewConfigHandler(env).error;
      var missing := MissingKeys(Load(env));
      && StartsWith(message, MissingPrefix)
      && |missing| >= 1
      && Split(message[|MissingPrefix|..], ',') == Pad(missing, "", " ")
      && exists indices :: SelectsUnset(Load(env), missing, indices)
  {
    var config := Load(env);
    var missing := MissingKeys(config);
    var listed := Join(missing, ", ");
    var message := NewConfigHandler(env).error;
    assert message == MissingPrefix + listed;
    assert message[..|MissingPrefix|] == MissingPrefix;
    assert message[|MissingPrefix|..] == listed;
    var i :| 0 <= i < |RequiredKeys| && env(RequiredKeys[i]).None?;
    assert config[i].0 in missing;
    ListedKeys(config);
    MissingKeysInOrder(config);
  }

  /** The names of the required variables contain no comma. */
  lemma KeysWithoutComma()
    ensures forall k :: k in RequiredKeys ==> ',' !in k
  {
    var k0, k1, k2, k3 := "S3_ENDPOINT_URL", "AWS_ACCESS_KEY_ID", "AWS_SECRET_ACCESS_KEY", "S3_BUCKET";
    assert RequiredKeys == [k0, k1, k2, k3];
    assert ',' !in k0 && ',' !in k1 && ',' !in k2 && ',' !in k3;
  }

  /** Splitting the listed keys at the commas gives each key back, the
      blank of the ", " delimiter still in front of all but the first. */
  lemma ListedKeys(config: Entries)
    requires |config| == |RequiredKeys|
    requires forall i :: 0 <= i < |config| ==> config[i].0 == RequiredKeys[i]
    requires |MissingKeys(config)| >= 1
    ensures Split(Join(MissingKeys(config), ", "), ',') == Pad(MissingKeys(config), "", " ")
  {
    var missing := MissingKeys(config);
    KeysWithoutComma();
    forall j | 0 <= j < |missing|
      ensures ',' !in missing[j]
    {
      assert missing[j] in missing;
      var k :| 0 <= k < |config| && config[k].0 == missing[j] && config[k].1.None?;
      assert missing[j] in RequiredKeys;
    }
    var none, blank := "", " ";
    assert ", " == none + [','] + blank;
    SplitJoinPadded(missing, none, ',', blank);
  }
}

=== FILE: matrix_helper.dfy ===
/** The comparison runner of `matrix_helper.py`: device inspection, the CUDA
    guard of the GPU multiply, and the loop that assembles one benchmark record
    per matrix size.

    The multiplications themselves (random matrices, tensor transfer,
    synchronisation and the clock) are an oracle `measure`: for a pass of the
    loop it yields the elapsed seconds, or the message of the exception the
    pass raised. */
module MatrixHelper {
  import opened Wrappers
  import opened Text
  import opened Numerals

  datatype Device = Cpu | Gpu

  /** One timed multiplication: the loop iteration, the matrix size, the device. */
  datatype Pass = Pass(iteration: nat, size: int, device: Device)

  /** One result dictionary: `size`, `cpu_time`, `gpu_time`, `speedup`. */
  datatype Record = Record(size: int, cpuTime: real, gpuTime: Option<real>, speedup: Option<real>)

  /** An insertion-ordered dictionary of device attributes. */
  type DeviceInfo = seq<(string, string)>

  /** What the CUDA runtime reports when asked: device 0's name, the device
      count, and the allocated and reserved memory in bytes. */
  datatype DeviceProbe = DeviceProbe(name: string, count: nat, allocatedBytes: nat, reservedBytes: nat)

  /** A device call the loop makes, in order. */
  datatype Effect = Multiplied(pass: Pass) | CacheEmptied(iteration: nat)

  datatype Comparison = Comparison(records: seq<Record>, deviceInfo: DeviceInfo)

  const CpuOnlyName := "CPU only - No CUDA device available"
  const CudaUnavailable := "CUDA is not available on this system"
  const BytesPerMegabyte: real := 1048576.0

  function Keys(info: DeviceInfo): seq<string> {
    seq(|info|, i requires 0 <= i < |info| => info[i].0)
  }

  /** The speedup rule: a speedup exists exactly when a positive GPU time
      does, and it is then the ratio of CPU time to GPU time. */
  predicate SpeedupRule(r: Record) {
    && (r.speedup.Some? <==> r.gpuTime.Some? && r.gpuTime.value > 0.0)
    && (r.speedup.Some? ==> r.speedup.value * r.gpuTime.value == r.cpuTime)
  }

  /** `get_device_info`: one entry when there is no CUDA device, otherwise the
      device name, count and the two memory figures in megabytes. */
  function GetDeviceInfo(cuda: bool, probe: DeviceProbe, fmt: Formatter): (info: DeviceInfo)
    ensures !cuda ==> info == [("device_name", CpuOnlyName)]
    ensures cuda ==> Keys(info) == ["device_name", "device_count", "memory_allocated", "memory_reserved"]
    ensures cuda ==> info[0].1 == probe.name && ParseInt(info[1].1) == Some(probe.count as int)
    ensures cuda ==> info[1].1 == IntToString(probe.count as int)
    ensures cuda ==> info[2].1 == fmt.fixed2(probe.allocatedBytes as real / BytesPerMegabyte) + " MB"
    ensures cuda ==> info[3].1 == fmt.fixed2(probe.reservedBytes as real / BytesPerMegabyte) + " MB"
    ensures cuda ==> EndsWith(info[2].1, " MB") && EndsWith(info[3].1, " MB")
  {
    if cuda then
      [ ("device_name", probe.name),
        ("device_count", IntToString(probe.count)),
        ("memory_allocated", fmt.fixed2(probe.allocatedBytes as real / BytesPerMegabyte) + " MB"),
        ("memory_reserved", fmt.fixed2(probe.reservedBytes as real / BytesPerMegabyte) + " MB") ]
    else
      [("device_name", CpuOnlyName)]
  }

  /** `matrix_multiply_gpu`: refuses before any work when CUDA is missing. */
  function MultiplyGpu(cuda: bool, measure: Pass -> Result<real, string>, pass: Pass): (r: Result<real, string>)
    ensures !cuda ==> r == Failure(CudaUnavailable)
    ensures cuda ==> r == measure(pass)
  {
    if !cuda then Failure(CudaUnavailable) else measure(pass)
  }

  /** One iteration of the loop of `run_comparison`: the CPU pass, the GPU pass
      when CUDA is available, and the record built from their times. The first
      failing pass aborts with its message. */
  function MeasureSize(iteration: nat, size: int, cuda: bool, measure: Pass -> Result<real, string>): (r: Result<Record, string>)
    ensures var cpu := measure(Pass(iteration, size, Cpu));
      var gpu := measure(Pass(iteration, size, Gpu));
      && (r.Success? <==> cpu.Success? && (cuda ==> gpu.Success?))
      && (r.Failure? ==> r.error == if cpu.Failure? then cpu.error else gpu.error)
      && (r.Success? ==>
            && r.value.size == size
            && r.value.cpuTime == cpu.value
            && (r.value.gpuTime.None? <==> !cuda)
            && (cuda ==> r.value.gpuTime == Some(gpu.value)))
  {
    var cpuTime :- measure(Pass(iteration, size, Cpu));
    var gpuTime :- if cuda then MultiplyGpu(cuda, measure, Pass(iteration, size, Gpu)) else Success(0.0);
    Success(Record(
      size,
      cpuTime,
      if cuda then Some(gpuTime) else None,
      if cuda && gpuTime > 0.0 then Some(cpuTime / gpuTime) else None))
  }

  /** Every record the loop builds obeys the speedup rule. */
  lemma MeasuredSpeedup(iteration: nat, size: int, cuda: bool, measure: Pass -> Result<real, string>)
    requires MeasureSize(iteration, size, cuda, measure).Success?
    ensures SpeedupRule(MeasureSize(iteration, size, cuda, measure).value)
  {
  }

  /** The number of `empty_cache` calls in a sequence of effects. */
  function CacheReleases(effects: seq<Effect>): nat
  {
    if |effects| == 0 then 0
    else CacheReleases(effects[..|effects| - 1]) + (if effects[|effects| - 1].CacheEmptied? then 1 else 0)
  }

  predicate GpuUntouched(effects: seq<Effect>) {
    forall k :: 0 <= k < |effects| ==> !(effects[k].Multiplied? && effects[k].pass.device == Gpu)
  }

  /** The device calls one iteration of `run_comparison` makes, in order: the
      CPU multiplication; on CUDA, once that has returned, the GPU
      multiplication; on CUDA, once both have returned, the cache release. A
      pass that raises ends the list. A `Multiplied` entry records that the
      pass was started, not that its multiplication was reached: a pass can
      raise before it multiplies, while building its matrices. */
  function IterationEffects(iteration: nat, size: int, cuda: bool, measure: Pass -> Result<real, string>): seq<Effect> {
    var cpu, gpu := Pass(iteration, size, Cpu), Pass(iteration, size, Gpu);
    if !cuda || measure(cpu).Failure? then [Multiplied(cpu)]
    else if measure(gpu).Failure? then [Multiplied(cpu), Multiplied(gpu)]
    else [Multiplied(cpu), Multiplied(gpu), CacheEmptied(iteration)]
  }

  /** The device calls of the first `n` iterations, one block after another. */
  function EffectsLog(sizes: seq<int>, n: nat, cuda: bool, measure: Pass -> Result<real, string>): seq<Effect>
    requires n <= |sizes|
    decreases n
  {
    if n == 0 then []
    else EffectsLog(sizes, n - 1, cuda, measure) + IterationEffects(n - 1, sizes[n - 1], cuda, measure)
  }

  /** `run_comparison`: captures the device information once, then runs one
      iteration per size in order. It returns the records and device
      information, or the message of the first failing pass; `effects` lists
      the multiplications attempted and the cache releases made, iteration by
      iteration up to and including a failing one. */
  method RunComparison(sizes: seq<int>, cuda: bool, probe: DeviceProbe, fmt: Formatter, measure: Pass -> Result<real, string>)
    returns (outcome: Result<Comparison, string>, effects: seq<Effect>)
    ensures outcome.Success? <==> forall i :: 0 <= i < |sizes| ==> MeasureSize(i, sizes[i], cuda, measure).Success?
    ensures outcome.Success? ==>
      && |outcome.value.records| == |sizes|
      && outcome.value.deviceInfo == GetDeviceInfo(cuda, probe, fmt)
      && (forall i :: 0 <= i < |sizes| ==> outcome.value.records[i] == MeasureSize(i, sizes[i], cuda, measure).value)
      && effects == EffectsLog(sizes, |sizes|, cuda, measure)
    ensures outcome.Failure? ==>
      exists i :: 0 <= i < |sizes|
        && (forall j :: 0 <= j < i ==> MeasureSize(j, sizes[j], cuda, measure).Success?)
        && MeasureSize(i, sizes[i], cuda, measure) == Failure(outcome.error)
        && effects == EffectsLog(sizes, i + 1, cuda, measure)
  {
    var records: seq<Record> := [];
    var deviceInfo := GetDeviceInfo(cuda, probe, fmt);
    effects := [];
    var i := 0;
    while i < |sizes|
      invariant 0 <= i <= |sizes|
      invariant |records| == i
      invariant forall j :: 0 <= j < i ==> MeasureSize(j, sizes[j], cuda, measure) == Success(records[j])
      invariant effects == EffectsLog(sizes, i, cuda, measure)
    {
      var step, performed := MeasureStep(i, sizes[i], cuda, measure);
      effects := effects + performed;
      if step.Failure? {
        outcome := Failure(step.error);
        return;
      }
      records := records + [step.value];
      i := i + 1;
    }
    outcome := Success(Comparison(records, deviceInfo));
  }

  /** One pass of the loop body of `run_comparison`: the CPU multiplication,
      the GPU multiplication when CUDA is available and the CPU one succeeded,
      and the cache release that ends a successful iteration on CUDA. */
  method MeasureStep(iteration: nat, size: int, cuda: bool, measure: Pass -> Result<real, string>)
    returns (step: Result<Record, string>, performed: seq<Effect>)
    ensures step == MeasureSize(iteration, size, cuda, measure)
    ensures performed == IterationEffects(iteration, size, cuda, measure)
  {
    var cpu := measure(Pass(iteration, size, Cpu));
    performed := [Multiplied(Pass(iteration, size, Cpu))];
    if cpu.Failure? {
      step := Failure(cpu.error);
      return;
    }
    var gpuTime: real := 0.0;
    if cuda {
      var gpu := MultiplyGpu(cuda, measure, Pass(iteration, size, Gpu));
      performed := performed + [Multiplied(Pass(iteration, size, Gpu))];
      if gpu.Failure? {
        step := Failure(gpu.error);
        return;
      }
      gpuTime := gpu.value;
    }
    step := Success(Record(
      size,
      cpu.value,
      if cuda then Some(gpuTime) else None,
      if cuda && gpuTime > 0.0 then Some(cpu.value / gpuTime) else None));
    if cuda {
      performed := performed + [CacheEmptied(iteration)];
    }
  }

  /** Releases add up over consecutive stretches of effects. */
  lemma {:induction false} ReleasesConcat(effects: seq<Effect>, more: seq<Effect>)
    ensures CacheReleases(effects + more) == CacheReleases(effects) + CacheReleases(more)
    decreases |more|
  {
    if |more| > 0 {
      var init := more[..|more| - 1];
      ReleasesConcat(effects, init);
      assert (effects + more)[..|effects + more| - 1] == effects + init;
    } else {
      assert effects + more == effects;
    }
  }

  /** A stretch of effects leaves the GPU alone exactly when both parts do. */
  lemma UntouchedConcat(effects: seq<Effect>, more: seq<Effect>)
    ensures GpuUntouched(effects + more) <==> GpuUntouched(effects) && GpuUntouched(more)
  {
    var r := effects + more;
    if GpuUntouched(r) {
      forall k | 0 <= k < |more|
        ensures !(more[k].Multiplied? && more[k].pass.device == Gpu)
      {
        assert r[|effects| + k] == more[k];
      }
      forall k | 0 <= k < |effects|
        ensures !(effects[k].Multiplied? && effects[k].pass.device == Gpu)
      {
        assert r[k] == effects[k];
      }
    }
  }

  /** An iteration releases the cache exactly when it runs on CUDA and both
      of its passes return; without CUDA it never touches the GPU. */
  lemma IterationReleases(iteration: nat, size: int, cuda: bool, measure: Pass -> Result<real, string>)
    ensures CacheReleases(IterationEffects(iteration, size, cuda, measure)) ==
      if cuda && MeasureSize(iteration, size, cuda, measure).Success? then 1 else 0
    ensures !cuda ==> GpuUntouched(IterationEffects(iteration, size, cuda, measure))
  {
    var block := IterationEffects(iteration, size, cuda, measure);
    var cpu, gpu := Pass(iteration, size, Cpu), Pass(iteration, size, Gpu);
    var one: seq<Effect> := [Multiplied(cpu)];
    var two: seq<Effect> := [Multiplied(cpu), Multiplied(gpu)];
    assert CacheReleases(one) == 0 by {
      assert one[..0] == [];
    }
    assert CacheReleases(two) == 0 by {
      assert two[..1] == one;
    }
    if |block| == 3 {
      assert block[..2] == two;
    }
  }

  /** Over iterations that all succeed the releases count the iterations on
      CUDA; without CUDA there is no release and no GPU call at all. */
  lemma {:induction false} LogReleases(sizes: seq<int>, n: nat, cuda: bool, measure: Pass -> Result<real, string>)
    requires n <= |sizes|
    ensures (forall j :: 0 <= j < n ==> MeasureSize(j, sizes[j], cuda, measure).Success?) ==>
      CacheReleases(EffectsLog(sizes, n, cuda, measure)) == if cuda then n else 0
    ensures !cuda ==> CacheReleases(EffectsLog(sizes, n, cuda, measure)) == 0 && GpuUntouched(EffectsLog(sizes, n, cuda, measure))
    decreases n
  {
    if n > 0 {
      var before, block := EffectsLog(sizes, n - 1, cuda, measure), IterationEffects(n - 1, sizes[n - 1], cuda, measure);
      LogReleases(sizes, n - 1, cuda, measure);
      IterationReleases(n - 1, sizes[n - 1], cuda, measure);
      ReleasesConcat(before, block);
      UntouchedConcat(before, block);
    } else {
      assert GpuUntouched([]);
    }
  }

  /** When iteration `i` is the first to fail, the cache was released once per
      completed iteration on CUDA and never without it. */
  lemma FailedIteration(sizes: seq<int>, i: nat, cuda: bool, measure: Pass -> Result<real, string>)
    requires i < |sizes|
    requires forall j :: 0 <= j < i ==> MeasureSize(j, sizes[j], cuda, measure).Success?
    requires MeasureSize(i, sizes[i], cuda, measure).Failure?
    ensures CacheReleases(EffectsLog(sizes, i + 1, cuda, measure)) == if cuda then i else 0
  {
    LogReleases(sizes, i, cuda, measure);
    IterationReleases(i, sizes[i], cuda, measure);
    ReleasesConcat(EffectsLog(sizes, i, cuda, measure), IterationEffects(i, sizes[i], cuda, measure));
  }

  function ExampleMeasure(p: Pass): Result<real, string> {
    match p.device
    case Cpu => Success(p.size as real / 1000.0)
    case Gpu => if p.size == 2000 then Success(0.0) else Success(p.size as real / 2000.0)
  }

  /** Fixed times cpu = 1, 2, 3 s and gpu = 0.5, 0, 1.5 s for sizes 1000, 2000,
      3000 give speedups 2, none, 2: a zero GPU time yields no speedup. */
  lemma SpeedupExample()
    ensures MeasureSize(0, 1000, true, ExampleMeasure).value.speedup == Some(2.0)
    ensures MeasureSize(1, 2000, true, ExampleMeasure).value.speedup == None
    ensures MeasureSize(2, 3000, true, ExampleMeasure).value.speedup == Some(2.0)
  {
  }
}

=== FILE: numerals.dfy ===
/** Decimal integer literals: Python's `str(n)` for an `int`, and `int(s)`
    restricted to an optional ASCII sign followed by ASCII digits. */
module Numerals {
  import opened Wrappers
  import opened Text

  predicate IsDigit(c: char) {
    '0' <= c <= '9'
  }

  predicate AllDigits(s: string) {
    forall i :: 0 <= i < |s| ==> IsDigit(s[i])
  }

  function DigitChar(d: nat): (c: char)
    requires d < 10
    ensures IsDigit(c) && c as int - '0' as int == d
  {
    ('0' as int + d) as char
  }

  predicate DigitOrUnderscore(c: char) {
    IsDigit(c) || c == '_'
  }

  /** The body of a decimal literal as `int()` accepts it: digits, where single
      underscores may separate two digits. A run ends in a digit, preceded by
      nothing, by a shorter run, or by a shorter run and one underscore. */
  predicate IsDigitRun(s: string)
    decreases |s|
  {
    && |s| >= 1
    && IsDigit(s[|s| - 1])
    && (|s| == 1 || if s[|s| - 2] == '_' then IsDigitRun(s[..|s| - 2]) else IsDigitRun(s[..|s| - 1]))
  }

  /** A run holds only digits and underscores. */
  lemma {:induction false} RunChars(s: string)
    requires IsDigitRun(s)
    ensures forall i :: 0 <= i < |s| ==> DigitOrUnderscore(s[i])
    decreases |s|
  {
    if |s| > 1 {
      var init := if s[|s| - 2] == '_' then s[..|s| - 2] else s[..|s| - 1];
      RunChars(init);
      assert forall i :: 0 <= i < |init| ==> s[i] == init[i];
    }
  }

  /** A non-empty string of digits is a run. */
  lemma {:induction false} DigitsRun(s: string)
    requires |s| >= 1 && AllDigits(s)
    ensures IsDigitRun(s)
    decreases |s|
  {
    if |s| > 1 {
      var init := s[..|s| - 1];
      assert AllDigits(init) by {
        assert forall i :: 0 <= i < |init| ==> init[i] == s[i];
      }
      DigitsRun(init);
      assert !IsDigit('_');
    }
  }

  /** The value of a run of decimal digits, most significant first;
      anything but a digit (the underscores of a run) carries no value. */
  function DigitsValue(s: string): nat
    decreases |s|
  {
    if |s| == 0 then 0
    else
      var last := s[|s| - 1];
      if IsDigit(last) then DigitsValue(s[..|s| - 1]) * 10 + (last as int - '0' as int)
      else DigitsValue(s[..|s| - 1])
  }

  /** Python's `str(n)` for a non-negative `n`: the shortest digit string of `n`. */
  function NatToString(n: nat): (r: string)
    ensures |r| >= 1 && AllDigits(r)
    ensures DigitsValue(r) == n
    ensures r[0] == '0' ==> n == 0 && r == "0"
    decreases n
  {
    if n < 10 then [DigitChar(n)]
    else
      var r := NatToString(n / 10) + [DigitChar(n % 10)];
      assert r[..|r| - 1] == NatToString(n / 10);
      r
  }

  /** The text `int()` accepts in base 10 once stripped: an optional sign,
      then a run of digits. */
  predicate IntLiteral(s: string) {
    || IsDigitRun(s)
    || (|s| >= 1 && (s[0] == '+' || s[0] == '-') && IsDigitRun(s[1..]))
  }

  /** Python's `int(s)` in base 10 on an already stripped token: an optional
      sign, then digits with single underscores allowed between them; leading
      zeros are accepted, as Python accepts them. */
  function ParseInt(s: string): (r: Option<int>)
    ensures |s| == 0 ==> r.None?
    ensures (exists i :: 0 <= i < |s| && IsSpace(s[i])) ==> r.None?
    ensures |s| > 0 && AllDigits(s) ==> r == Some(DigitsValue(s))
    ensures r.Some? ==> IsDigit(s[|s| - 1])
  {
    if |s| > 0 && (s[0] == '+' || s[0] == '-') then
      var digits := s[1..];
      if IsDigitRun(digits) then
        RunChars(digits);
        assert forall i :: 1 <= i < |s| ==> s[i] == digits[i - 1];
        var magnitude: int := DigitsValue(digits);
        Some(if s[0] == '-' then -magnitude else magnitude)
      else None
    else if IsDigitRun(s) then
      RunChars(s);
      Some(DigitsValue(s))
    else
      assert |s| > 0 && AllDigits(s) ==> IsDigitRun(s) by {
        if |s| > 0 && AllDigits(s) {
          DigitsRun(s);
        }
      }
      None
  }

  /** A signed text is not itself a run: a run holds only digits and underscores. */
  lemma SignedNotRun(s: string)
    requires |s| > 0 && (s[0] == '+' || s[0] == '-')
    ensures !IsDigitRun(s)
  {
    if IsDigitRun(s) {
      RunChars(s);
    }
  }

  /** `int()` accepts exactly an optional sign followed by a run of digits. */
  lemma ParseIntGrammar(s: string)
    ensures ParseInt(s).Some? <==> IntLiteral(s)
  {
    if |s| > 0 && (s[0] == '+' || s[0] == '-') {
      SignedNotRun(s);
    }
  }

  lemma SignedValue(s: string)
    requires |s| >= 1 && (s[0] == '+' || s[0] == '-') && IsDigitRun(s[1..])
    ensures ParseInt(s) == Some(if s[0] == '-' then -(DigitsValue(s[1..]) as int) else DigitsValue(s[1..]))
  {
  }

  /** The value `int()` reads is the run's value, negated after a minus sign. */
  lemma ParseIntValue(s: string)
    ensures IsDigitRun(s) ==> ParseInt(s) == Some(DigitsValue(s))
    ensures |s| >= 1 && s[0] == '+' && IsDigitRun(s[1..]) ==> ParseInt(s) == Some(DigitsValue(s[1..]))
    ensures |s| >= 1 && s[0] == '-' && IsDigitRun(s[1..]) ==> ParseInt(s) == Some(-(DigitsValue(s[1..]) as int))
  {
    if |s| >= 1 && (s[0] == '+' || s[0] == '-') {
      SignedNotRun(s);
      if IsDigitRun(s[1..]) {
        SignedValue(s);
      }
    }
  }

  /** Python's `str(n)` for any `int`; `int()` reads it back to the same value. */
  function IntToString(n: int): (r: string)
    ensures |r| >= 1 && Trimmed(r)
    ensures ParseInt(r) == Some(n)
    ensures forall i :: 0 <= i < |r| ==> IsDigit(r[i]) || (i == 0 && r[i] == '-')
  {
    if n < 0 then
      var digits := NatToString(-n);
      var r := "-" + digits;
      assert r[1..] == digits;
      DigitsRun(digits);
      r
    else NatToString(n)
  }

  /** `str(n)` is canonical: a minus sign exactly for negatives, then the
      digits of the magnitude without leading zeros. */
  lemma IntToStringCanonical(n: int)
    ensures var r := IntToString(n);
      && (r[0] == '-' <==> n < 0)
      && var digits := if n < 0 then r[1..] else r;
      && digits == NatToString(if n < 0 then -n else n)
      && |digits| >= 1 && AllDigits(digits)
      && (digits[0] == '0' ==> digits == "0")
  {
    var r := IntToString(n);
    if n < 0 {
      assert r[1..] == NatToString(-n);
    }
  }

  /** Underscores group digits: "1_000" reads as 1000, while a doubled,
      leading or trailing underscore is refused. */
  lemma UnderscoreGrouping()
    ensures ParseInt("1_000") == Some(1000)
    ensures ParseInt("-2_5") == Some(-25)
    ensures ParseInt("1__0").None? && ParseInt("_1").None? && ParseInt("1_").None?
  {
    var a := "1_000";
    assert IsDigitRun("1");
    assert IsDigitRun("1_0");
    assert IsDigitRun("1_00");
    assert a[..4] == "1_00";
    assert IsDigitRun(a);
    assert ("1")[..0] == "" && ("1_")[..1] == "1" && ("1_0")[..2] == "1_" && ("1_00")[..3] == "1_0";
    assert DigitsValue("1") == 1;
    assert DigitsValue("1_") == 1;
    assert DigitsValue("1_0") == 10;
    assert DigitsValue("1_00") == 100;
    assert DigitsValue(a) == 1000;
    var b := "2_5";
    assert IsDigitRun("2");
    assert IsDigitRun(b);
    assert b[..2] == "2_" && ("2_")[..1] == "2" && ("2")[..0] == "";
    assert DigitsValue("2") == 2;
    assert DigitsValue(b) == 25;
    assert ("-2_5")[1..] == b;
    var c := "1__0";
    assert !IsDigitRun(c) by { assert c[1] == '_' && c[2] == '_'; }
  }

  /** A character Python's fixed-point float formatting can produce:
      digits, sign, decimal point, and the letters of `inf` and `nan`. */
  predicate NumericChar(c: char) {
    IsDigit(c) || c == '-' || c == '.' || c == 'i' || c == 'n' || c == 'f' || c == 'a'
  }

  predicate NumericText(s: string) {
    |s| >= 1 && forall i :: 0 <= i < |s| ==> NumericChar(s[i])
  }

  /** Float-to-text rendering, left uninterpreted: `fixed6(x)` stands for
      `f"{x:.6f}"` and `fixed2(x)` for `f"{x:.2f}"`. */
  datatype Formatter = Formatter(fixed6: real -> string, fixed2: real -> string)

  /** Every rendering is a non-empty run of numeric characters, as Python's
      fixed-point formatting is. */
  ghost predicate WellFormed(fmt: Formatter) {
    && (forall x: real :: NumericText(fmt.fixed6(x)))
    && (forall x: real :: NumericText(fmt.fixed2(x)))
  }

  lemma Renders(fmt: Formatter, x: real)
    requires WellFormed(fmt)
    ensures NumericText(fmt.fixed6(x)) && NumericText(fmt.fixed2(x))
  {
  }

  /** Numeric text has no whitespace at its ends. */
  lemma NumericTextTrimmed(s: string)
    requires NumericText(s)
    ensures Trimmed(s)
  {
    assert NumericChar(s[0]) && NumericChar(s[|s| - 1]);
  }
}

=== FILE: report.dfy ===
/** The benchmark report of `main.py`: its file name and path, the fixed-width
    text layout, and the console summary printed after a run. The object-storage
    sink writes the very same layout (see `S3Operations`). */
module Report {
  import opened Wrappers
  import opened Text
  import opened Numerals
  import opened MatrixHelper

  const Title := "Matrix Multiplication Benchmark Results"
  const Rule := "====================================="
  const ColumnTitles := ["Matrix Size", "CPU Time (s)", "GPU Time (s)", "Speedup"]
  const CellWidth: nat := 12
  const CellSeparator := " | "
  const DividerWidth: nat := 55
  const Unavailable := "N/A"
  const FilePrefix := "matrix_multiplication_benchmark_"
  const FileSuffix := ".txt"
  const DefaultResultsDir := "results"

  function CenterAll(cells: seq<string>): (centred: seq<string>)
    ensures |centred| == |cells|
    ensures forall i :: 0 <= i < |cells| ==> centred[i] == Center(cells[i], CellWidth)
  {
    seq(|cells|, i requires 0 <= i < |cells| => Center(cells[i], CellWidth))
  }

  /** The cells, each centred in a 12-character field, joined by " | ". */
  function TableLine(cells: seq<string>): string {
    Join(CenterAll(cells), CellSeparator)
  }

  function HeaderRow(): string {
    TableLine(ColumnTitles)
  }

  function Divider(): string {
    Repeat('-', DividerWidth)
  }

  function GpuCell(r: Record, fmt: Formatter): string {
    match r.gpuTime
    case None => Unavailable
    case Some(g) => fmt.fixed6(g)
  }

  function SpeedupCell(r: Record, fmt: Formatter): string {
    match r.speedup
    case None => Unavailable
    case Some(s) => fmt.fixed2(s) + "x"
  }

  /** The unpadded contents of a record's row, column by column. */
  function Cells(r: Record, fmt: Formatter): seq<string> {
    [IntToString(r.size), fmt.fixed6(r.cpuTime), GpuCell(r, fmt), SpeedupCell(r, fmt)]
  }

  function RowText(r: Record, fmt: Formatter): string {
    TableLine(Cells(r, fmt))
  }

  /** How a reader recovers the cells of a table line: split at '|' and strip. */
  function ReadCells(line: string): (cells: seq<string>)
    ensures |cells| == Occurrences(line, '|') + 1
  {
    var parts := Split(line, '|');
    seq(|parts|, i requires 0 <= i < |parts| => Strip(parts[i]))
  }

  function DeviceLines(info: DeviceInfo): seq<string> {
    seq(|info|, i requires 0 <= i < |info| => info[i].0 + ": " + info[i].1)
  }

  function RowLines(results: seq<Record>, fmt: Formatter): seq<string> {
    seq(|results|, i requires 0 <= i < |results| => RowText(results[i], fmt))
  }

  /** The lines `save_results` writes, in order. */
  function ReportLines(results: seq<Record>, info: DeviceInfo, fmt: Formatter): seq<string> {
    [Title, Rule, "", "Device Information:"]
    + DeviceLines(info)
    + ["", "Benchmark Results:", Rule, HeaderRow(), Divider()]
    + RowLines(results, fmt)
  }

  /** The report text: every line followed by a line feed. */
  function ReportText(results: seq<Record>, info: DeviceInfo, fmt: Formatter): string {
    Unlines(ReportLines(results, info, fmt))
  }

  /** The file name of a report written at `timestamp`. */
  function FileName(timestamp: string): (name: string)
    ensures |name| == |FilePrefix| + |timestamp| + |FileSuffix|
    ensures StartsWith(name, FilePrefix) && EndsWith(name, FileSuffix)
    ensures name[|FilePrefix|..|name| - |FileSuffix|] == timestamp
  {
    var name := FilePrefix + timestamp + FileSuffix;
    assert name[..|FilePrefix|] == FilePrefix;
    assert name[|name| - |FileSuffix|..] == FileSuffix;
    assert name[|FilePrefix|..|name| - |FileSuffix|] == timestamp;
    name
  }

  /** POSIX `os.path.join(dir, name)`: an absolute `name` replaces `dir`; a
      '/' is inserted unless `dir` is empty or already ends with one. */
  function PathJoin(dir: string, name: string): (path: string)
    ensures StartsWith(name, "/") ==> path == name
    ensures !StartsWith(name, "/") ==>
      path == dir + (if |dir| == 0 || dir[|dir| - 1] == '/' then "" else "/") + name
    ensures EndsWith(path, name)
    ensures |path| == |name| || path[|path| - |name| - 1] == '/'
    ensures !StartsWith(name, "/") ==> StartsWith(path, dir)
  {
    if StartsWith(name, "/") then name
    else
      var path := if |dir| == 0 || dir[|dir| - 1] == '/' then dir + name else dir + "/" + name;
      assert path[|path| - |name|..] == name;
      assert path[..|dir|] == dir;
      path
  }

  datatype SavedFile = SavedFile(path: string, content: string)

  /** `save_results` of `main.py`: the report goes to
      `<RESULTS_DIR or "results">/matrix_multiplication_benchmark_<timestamp>.txt`. */
  function SaveResults(resultsDir: Option<string>, timestamp: string, results: seq<Record>, info: DeviceInfo, fmt: Formatter): (saved: SavedFile)
    ensures var dir := if resultsDir.Some? then resultsDir.value else DefaultResultsDir;
      && StartsWith(saved.path, dir)
      && EndsWith(saved.path, FileName(timestamp))
      && (|saved.path| == |FileName(timestamp)| || saved.path[|saved.path| - |FileName(timestamp)| - 1] == '/')
      && saved.path == PathJoin(dir, FileName(timestamp))
    ensures saved.content == ReportText(results, info, fmt)
  {
    var dir := resultsDir.GetOr(DefaultResultsDir);
    FileNameRelative(timestamp);
    SavedFile(PathJoin(dir, FileName(timestamp)), ReportText(results, info, fmt))
  }

  /** A report's file name does not start with '/', so `os.path.join` keeps
      the results directory in front of it. */
  lemma FileNameRelative(timestamp: string)
    ensures !StartsWith(FileName(timestamp), "/")
  {
    var name, prefix, slash := FileName(timestamp), FilePrefix, "/";
    assert name[0] == prefix[0];
    assert prefix[0] == 'm' && slash[0] == '/';
    assert |slash| == 1;
  }

  /** The timestamps `strftime("%Y%m%d_%H%M%S")` renders hold digits and '_'
      only; what matters here is that they hold no '/'. */
  predicate SlashFree(s: string) {
    forall i :: 0 <= i < |s| ==> s[i] != '/'
  }

  /** With a '/'-free timestamp the report is one path component: it is the
      whole path when the directory is empty, and otherwise it follows the
      directory and a '/' that ends the directory part. */
  lemma FileStaysInDirectory(dir: string, timestamp: string)
    requires SlashFree(timestamp)
    ensures var name := FileName(timestamp);
      var path := PathJoin(dir, name);
      && SlashFree(name)
      && (|dir| == 0 ==> path == name)
      && (|dir| > 0 ==> && |path| > |name|
                        && path[..|dir|] == dir
                        && path[|path| - |name| - 1] == '/'
                        && path[|path| - |name|..] == name)
  {
    var name := FileName(timestamp);
    FileNameRelative(timestamp);
    assert forall i :: 0 <= i < |FilePrefix| ==> FilePrefix[i] != '/';
    assert forall i :: 0 <= i < |FileSuffix| ==> FileSuffix[i] != '/';
    assert name == FilePrefix + timestamp + FileSuffix;
    assert SlashFree(name) by {
      forall i | 0 <= i < |name|
        ensures name[i] != '/'
      {
        if i < |FilePrefix| {
          assert name[i] == FilePrefix[i];
        } else if i < |FilePrefix| + |timestamp| {
          assert name[i] == timestamp[i - |FilePrefix|];
        } else {
          assert name[i] == FileSuffix[i - |FilePrefix| - |timestamp|];
        }
      }
    }
  }

  /** The summary `main` prints after saving: a blank line, "Summary:", and
      the table between two dividers. */
  function SummaryLines(results: seq<Record>, fmt: Formatter): seq<string> {
    ["", "Summary:", Divider(), HeaderRow(), Divider()] + RowLines(results, fmt)
  }

  lemma CenteredTitles()
    ensures CenterAll(ColumnTitles) == ["Matrix Size ", "CPU Time (s)", "GPU Time (s)", "  Speedup   "]
  {
    assert Repeat(' ', 1) == " " && Repeat(' ', 0) == "";
    assert Repeat(' ', 2) == "  " && Repeat(' ', 3) == "   ";
    assert Center("Matrix Size", CellWidth) == "Matrix Size ";
    assert Center("Speedup", CellWidth) == "  Speedup   ";
  }

  lemma {:induction false} JoinLength(parts: seq<string>, d: string, width: nat)
    requires |parts| >= 1
    requires forall i :: 0 <= i < |parts| ==> |parts[i]| == width
    ensures |Join(parts, d)| == |parts| * width + (|parts| - 1) * |d|
    decreases |parts|
  {
    if |parts| > 1 {
      JoinLength(parts[1..], d, width);
    }
  }

  /** The header row is 57 characters wide, while the divider under it is 55;
      its titles are centred with the extra space on the right. */
  lemma HeaderLayout()
    ensures CenterAll(ColumnTitles) == ["Matrix Size ", "CPU Time (s)", "GPU Time (s)", "  Speedup   "]
    ensures |HeaderRow()| == 57 && |Divider()| == DividerWidth == 55
  {
    CenteredTitles();
    JoinLength(CenterAll(ColumnTitles), CellSeparator, CellWidth);
  }

  lemma HeaderSingleLine()
    ensures '\n' !in HeaderRow()
  {
    var t0, t1, t2, t3 := "Matrix Size", "CPU Time (s)", "GPU Time (s)", "Speedup";
    assert '\n' !in t0 && '\n' !in t1 && '\n' !in t2 && '\n' !in t3;
    assert ColumnTitles == [t0, t1, t2, t3];
    TableLineSingle(ColumnTitles);
  }

  /** A table line of cells without line feeds is a single line. */
  lemma TableLineSingle(cells: seq<string>)
    requires forall i :: 0 <= i < |cells| ==> '\n' !in cells[i]
    ensures '\n' !in TableLine(cells)
  {
    var centred := CenterAll(cells);
    forall i | 0 <= i < |cells|
      ensures '\n' !in centred[i]
    {
      CenterExcludes(cells[i], CellWidth, '\n');
    }
    JoinExcludes(centred, CellSeparator, '\n');
  }

  lemma {:induction false} JoinExcludes(parts: seq<string>, d: string, c: char)
    requires c !in d
    requires forall i :: 0 <= i < |parts| ==> c !in parts[i]
    ensures c !in Join(parts, d)
    decreases |parts|
  {
    if |parts| > 1 {
      JoinExcludes(parts[1..], d, c);
    }
  }

  /** A cell whose content is trimmed and holds neither '|' nor a line feed
      can be read back from its table line. */
  predicate Readable(cell: string) {
    Trimmed(cell) && '|' !in cell && '\n' !in cell
  }

  /** Whitespace around a padded string joins its padding. */
  lemma Regroup(a: string, l: string, s: string, t: string, b: string)
    requires AllSpace(a) && AllSpace(l) && AllSpace(t) && AllSpace(b)
    ensures AllSpace(a + l) && AllSpace(t + b)
    ensures a + (l + s + t) + b == (a + l) + s + (t + b)
  {
    AllSpaceConcat(a, l);
    AllSpaceConcat(t, b);
  }

  lemma StripSpaced(a: string, s: string, b: string)
    requires AllSpace(a) && AllSpace(b) && Trimmed(s)
    ensures Strip(a + Center(s, CellWidth) + b) == s
  {
    var l, t := CenterParts(s, CellWidth);
    Regroup(a, l, s, t, b);
    StripPadded(a + l, s, t + b);
  }

  lemma CenteredReadable(cells: seq<string>)
    requires forall i :: 0 <= i < |cells| ==> Readable(cells[i])
    ensures forall i :: 0 <= i < |cells| ==> '|' !in CenterAll(cells)[i] && '\n' !in CenterAll(cells)[i]
  {
    forall i | 0 <= i < |cells|
      ensures '|' !in CenterAll(cells)[i] && '\n' !in CenterAll(cells)[i]
    {
      CenterExcludes(cells[i], CellWidth, '|');
      CenterExcludes(cells[i], CellWidth, '\n');
    }
  }

  lemma SplitTableLine(cells: seq<string>)
    requires |cells| >= 1
    requires forall i :: 0 <= i < |cells| ==> Readable(cells[i])
    ensures Split(TableLine(cells), '|') == Pad(CenterAll(cells), " ", " ")
    ensures '\n' !in TableLine(cells)
  {
    CenteredReadable(cells);
    assert CellSeparator == " " + ['|'] + " ";
    SplitJoinPadded(CenterAll(cells), " ", '|', " ");
    JoinExcludes(CenterAll(cells), CellSeparator, '\n');
  }

  /** Reading a table line back yields exactly its cells, and the line has no
      line feed. */
  lemma ReadTableLine(cells: seq<string>)
    requires |cells| >= 1
    requires forall i :: 0 <= i < |cells| ==> Readable(cells[i])
    ensures ReadCells(TableLine(cells)) == cells
    ensures '\n' !in TableLine(cells)
  {
    SplitTableLine(cells);
    var padded := Pad(CenterAll(cells), " ", " ");
    var read := ReadCells(TableLine(cells));
    forall i | 0 <= i < |cells|
      ensures read[i] == cells[i]
    {
      var a := if i == 0 then "" else " ";
      var b := if i == |cells| - 1 then "" else " ";
      assert padded[i] == a + Center(cells[i], CellWidth) + b;
      assert read[i] == Strip(padded[i]);
      StripSpaced(a, cells[i], b);
    }
  }

  lemma CellsReadable(r: Record, fmt: Formatter)
    requires WellFormed(fmt)
    ensures forall i :: 0 <= i < 4 ==> Readable(Cells(r, fmt)[i])
  {
    Renders(fmt, r.cpuTime);
    SizeReadable(r.size);
    NumericReadable(fmt.fixed6(r.cpuTime), "");
    if r.gpuTime.Some? {
      Renders(fmt, r.gpuTime.value);
      NumericReadable(fmt.fixed6(r.gpuTime.value), "");
    } else {
      NotAvailableReadable();
    }
    if r.speedup.Some? {
      Renders(fmt, r.speedup.value);
      NumericReadable(fmt.fixed2(r.speedup.value), "x");
    } else {
      NotAvailableReadable();
    }
  }

  lemma SizeReadable(n: int)
    ensures Readable(IntToString(n))
  {
    var t := IntToString(n);
    assert forall k :: 0 <= k < |t| ==> t[k] != '|' && t[k] != '\n';
  }

  /** A rendered number, with an optional unit letter after it, can be read back. */
  lemma NumericReadable(t: string, unit: string)
    requires NumericText(t)
    requires unit == "" || unit == "x"
    ensures Readable(t + unit)
  {
    var u := t + unit;
    NumericTextTrimmed(t);
    assert forall k :: 0 <= k < |u| ==> NumericChar(u[k]) || u[k] == 'x';
    assert u[0] == t[0];
  }

  lemma NotAvailableReadable()
    ensures Readable(Unavailable)
  {
    var na := Unavailable;
    assert na == ['N', '/', 'A'];
  }

  /** A record's row reads back to its cells: the size, the CPU time, "N/A"
      exactly when there is no GPU time, and "N/A" exactly when there is no
      speedup (a speedup cell otherwise ends in 'x'). */
  lemma ReadRow(r: Record, fmt: Formatter)
    requires WellFormed(fmt)
    ensures ReadCells(RowText(r, fmt)) == Cells(r, fmt)
    ensures '\n' !in RowText(r, fmt)
    ensures var cells := ReadCells(RowText(r, fmt));
      && ParseInt(cells[0]) == Some(r.size)
      && cells[1] == fmt.fixed6(r.cpuTime)
      && (cells[2] == Unavailable <==> r.gpuTime.None?)
      && (cells[3] == Unavailable <==> r.speedup.None?)
      && (r.speedup.Some? ==> cells[3] == fmt.fixed2(r.speedup.value) + "x")
  {
    CellsReadable(r, fmt);
    ReadTableLine(Cells(r, fmt));
    CellContents(r, fmt);
  }

  lemma CellContents(r: Record, fmt: Formatter)
    requires WellFormed(fmt)
    ensures var cells := Cells(r, fmt);
      && ParseInt(cells[0]) == Some(r.size)
      && (cells[2] == Unavailable <==> r.gpuTime.None?)
      && (cells[3] == Unavailable <==> r.speedup.None?)
  {
    var na := Unavailable;
    assert na[0] == 'N' && !NumericChar(na[0]);
    if r.gpuTime.Some? {
      var g := fmt.fixed6(r.gpuTime.value);
      Renders(fmt, r.gpuTime.value);
      assert NumericChar(g[0]);
    }
    if r.speedup.Some? {
      var f := fmt.fixed2(r.speedup.value);
      Renders(fmt, r.speedup.value);
      assert NumericChar(f[0]);
      assert (f + "x")[0] == f[0];
    }
  }

  lemma DividerSingleLine()
    ensures '\n' !in Divider()
  {
    var d := Divider();
    forall k | 0 <= k < |d|
      ensures d[k] != '\n'
    {
      assert d[k] == '-';
    }
  }

  lemma FixedLinesSingle()
    ensures SingleLines([Title, Rule, "", "Device Information:"])
    ensures SingleLines(["", "Benchmark Results:", Rule, HeaderRow(), Divider()])
  {
    HeadSingle();
    MiddleSingle();
  }

  lemma HeadSingle()
    ensures SingleLines([Title, Rule, "", "Device Information:"])
  {
    var title, rule, blank, device := Title, Rule, "", "Device Information:";
    TitleSingle();
    RuleSingle();
    assert '\n' !in device;
    var head := [title, rule, blank, device];
    assert forall i :: 0 <= i < 4 ==> head[i] in {title, rule, blank, device};
  }

  lemma MiddleSingle()
    ensures SingleLines(["", "Benchmark Results:", Rule, HeaderRow(), Divider()])
  {
    var blank, heading := "", "Benchmark Results:";
    assert '\n' !in heading;
    RuleSingle();
    HeaderSingleLine();
    DividerSingleLine();
    SingleFive(blank, heading, Rule, HeaderRow(), Divider());
  }

  lemma TitleSingle()
    ensures '\n' !in Title
  {
    var title := Title;
    assert '\n' !in title;
  }

  lemma RuleSingle()
    ensures '\n' !in Rule
  {
    var rule := Rule;
    assert '\n' !in rule;
  }

  lemma SingleFive(a: string, b: string, c: string, d: string, e: string)
    requires '\n' !in a && '\n' !in b && '\n' !in c && '\n' !in d && '\n' !in e
    ensures SingleLines([a, b, c, d, e])
  {
    var five := [a, b, c, d, e];
    assert forall i :: 0 <= i < 5 ==> five[i] in {a, b, c, d, e};
  }

  lemma RowLinesSingle(results: seq<Record>, fmt: Formatter)
    requires WellFormed(fmt)
    ensures SingleLines(RowLines(results, fmt))
  {
    var rows := RowLines(results, fmt);
    forall j | 0 <= j < |rows|
      ensures '\n' !in rows[j]
    {
      ReadRow(results[j], fmt);
    }
  }

  lemma ReportLinesReadable(results: seq<Record>, info: DeviceInfo, fmt: Formatter)
    requires WellFormed(fmt)
    requires forall i :: 0 <= i < |info| ==> '\n' !in info[i].0 && '\n' !in info[i].1
    ensures SingleLines(ReportLines(results, info, fmt))
  {
    FixedLinesSingle();
    RowLinesSingle(results, fmt);
    var head: seq<string> := [Title, Rule, "", "Device Information:"];
    var middle: seq<string> := ["", "Benchmark Results:", Rule, HeaderRow(), Divider()];
    var devices := DeviceLines(info);
    assert SingleLines(devices) by {
      forall i | 0 <= i < |devices|
        ensures '\n' !in devices[i]
      {
        assert devices[i] == info[i].0 + ": " + info[i].1;
      }
    }
    SingleLinesConcat(head, devices);
    SingleLinesConcat(head + devices, middle);
    SingleLinesConcat(head + devices + middle, RowLines(results, fmt));
  }

  /** Where each part of a report of `head`, `devices`, `middle` and `rows`
      sits among its lines, read back with the empty text after the last
      line feed. */
  lemma Layout(head: seq<string>, devices: seq<string>, middle: seq<string>, rows: seq<string>, lines: seq<string>)
    requires |head| == 4 && |middle| == 5
    requires lines == head + devices + middle + rows + [""]
    ensures |lines| == 10 + |devices| + |rows|
    ensures lines[..4] == head
    ensures forall i :: 0 <= i < |devices| ==> lines[4 + i] == devices[i]
    ensures lines[4 + |devices|..9 + |devices|] == middle
    ensures forall j :: 0 <= j < |rows| ==> lines[9 + |devices| + j] == rows[j]
    ensures lines[|lines| - 1] == ""
  {
    assert lines[..4] == head;
    assert lines[4 + |devices|..9 + |devices|] == middle;
  }

  /** The report's lines are its four fixed parts in order. */
  lemma ReportParts(results: seq<Record>, info: DeviceInfo, fmt: Formatter)
    ensures ReportLines(results, info, fmt)
      == [Title, Rule, "", "Device Information:"] + DeviceLines(info)
         + ["", "Benchmark Results:", Rule, HeaderRow(), Divider()] + RowLines(results, fmt)
  {
  }

  /** Splitting the report text at its line feeds gives back its lines and
      the empty text after the last one. */
  lemma ReportSplits(results: seq<Record>, info: DeviceInfo, fmt: Formatter)
    requires WellFormed(fmt)
    requires forall i :: 0 <= i < |info| ==> '\n' !in info[i].0 && '\n' !in info[i].1
    ensures Split(ReportText(results, info, fmt), '\n') == ReportLines(results, info, fmt) + [""]
  {
    ReportLinesReadable(results, info, fmt);
    SplitUnlines(ReportLines(results, info, fmt));
  }

  /** Every row of the table reads back to its record's cells. */
  lemma RowsRead(results: seq<Record>, fmt: Formatter)
    requires WellFormed(fmt)
    ensures forall j :: 0 <= j < |results| ==> ReadCells(RowLines(results, fmt)[j]) == Cells(results[j], fmt)
  {
    forall j | 0 <= j < |results|
      ensures ReadCells(RowLines(results, fmt)[j]) == Cells(results[j], fmt)
    {
      ReadRow(results[j], fmt);
    }
  }

  /** Reading the written report back line by line recovers the layout: the
      fixed header block, one "key: value" line per device entry in order,
      the table heading, the 55-dash divider, and one row per record in order. */
  lemma ReadReport(results: seq<Record>, info: DeviceInfo, fmt: Formatter)
    requires WellFormed(fmt)
    requires forall i :: 0 <= i < |info| ==> '\n' !in info[i].0 && '\n' !in info[i].1
    ensures var lines := Split(ReportText(results, info, fmt), '\n');
      && |lines| == 10 + |info| + |results|
      && lines[..4] == [Title, Rule, "", "Device Information:"]
      && (forall i :: 0 <= i < |info| ==> lines[4 + i] == info[i].0 + ": " + info[i].1)
      && lines[4 + |info|..9 + |info|] == ["", "Benchmark Results:", Rule, HeaderRow(), Divider()]
      && (forall j :: 0 <= j < |results| ==> ReadCells(lines[9 + |info| + j]) == Cells(results[j], fmt))
      && lines[|lines| - 1] == ""
  {
    var head: seq<string> := [Title, Rule, "", "Device Information:"];
    var middle: seq<string> := ["", "Benchmark Results:", Rule, HeaderRow(), Divider()];
    ReportParts(results, info, fmt);
    ReportSplits(results, info, fmt);
    ReadLines(results, info, fmt, head, middle, Split(ReportText(results, info, fmt), '\n'));
  }

  lemma ReadLines(results: seq<Record>, info: DeviceInfo, fmt: Formatter, head: seq<string>, middle: seq<string>, lines: seq<string>)
    requires WellFormed(fmt)
    requires |head| == 4 && |middle| == 5
    requires lines == head + DeviceLines(info) + middle + RowLines(results, fmt) + [""]
    ensures |lines| == 10 + |info| + |results|
    ensures lines[..4] == head
    ensures forall i :: 0 <= i < |info| ==> lines[4 + i] == info[i].0 + ": " + info[i].1
    ensures lines[4 + |info|..9 + |info|] == middle
    ensures forall j :: 0 <= j < |results| ==> ReadCells(lines[9 + |info| + j]) == Cells(results[j], fmt)
    ensures lines[|lines| - 1] == ""
  {
    Layout(head, DeviceLines(info), middle, RowLines(results, fmt), lines);
    RowsRead(results, fmt);
  }

  /** The device section of the report: the single CPU-only line without
      CUDA; with CUDA the device name first, then a count that reads back
      as the device count. */
  lemma DeviceLinesRead(cuda: bool, probe: DeviceProbe, fmt: Formatter)
    ensures var lines := DeviceLines(GetDeviceInfo(cuda, probe, fmt));
      && |lines| == (if cuda then 4 else 1)
      && (!cuda ==> lines == ["device_name: " + CpuOnlyName])
      && (cuda ==> lines[0] == "device_name: " + probe.name && ParseInt(lines[1][14..]) == Some(probe.count as int))
  {
    var info := GetDeviceInfo(cuda, probe, fmt);
    var lines := DeviceLines(info);
    if cuda {
      var key := "device_count";
      assert info[1].0 == key;
      assert lines[1] == key + ": " + info[1].1;
      assert lines[1][14..] == info[1].1;
    } else {
      var key := "device_name";
      assert key + ": " == "device_name: ";
      assert lines[0] == key + ": " + CpuOnlyName;
    }
  }

  /** Past a head of four lines, the devices and three more lines, what is
      left of a report is the last two lines of its middle part and the rows;
      a five-line opening with the same last two lines leaves the same after
      its first three. */
  lemma TableTail(head: seq<string>, devices: seq<string>, middle: seq<string>, opening: seq<string>, rows: seq<string>)
    requires |head| == 4 && |middle| == 5 && |opening| == 5
    requires opening[3..] == middle[3..]
    ensures (opening + rows)[3..] == (head + devices + middle + rows)[7 + |devices|..]
  {
    var lines := head + devices + middle + rows;
    assert forall k :: 0 <= k < |middle| - 3 + |rows| ==>
      lines[7 + |devices| + k] == (middle[3..] + rows)[k];
    assert (opening + rows)[3..] == opening[3..] + rows;
  }

  /** The console summary uses the file's table heading and row format: from
      the heading on, it matches the report line for line. */
  lemma SummaryMatchesReport(results: seq<Record>, info: DeviceInfo, fmt: Formatter)
    ensures SummaryLines(results, fmt)[3..] == ReportLines(results, info, fmt)[7 + |info|..]
    ensures |SummaryLines(results, fmt)| == 5 + |results|
  {
    var header, divider := HeaderRow(), Divider();
    var middle: seq<string> := ["", "Benchmark Results:", Rule, header, divider];
    var opening: seq<string> := ["", "Summary:", divider, header, divider];
    ReportParts(results, info, fmt);
    TableTail([Title, Rule, "", "Device Information:"], DeviceLines(info), middle, opening, RowLines(results, fmt));
  }
}

=== FILE: s3_operations.dfy ===
/** The object-storage sink of `s3_operations.py`: counting the `.txt` reports
    in a listing, and naming, writing and locating an uploaded report. The
    storage service is not modelled: a listing arrives as a response value and
    an upload's failure as an optional error message. */
module S3Operations {
  import opened Wrappers
  import opened Text
  import opened Numerals
  import opened MatrixHelper
  import Report

  const ListingPrefix := "benchmark_results/"
  const TxtSuffix := ".txt"
  const UriScheme := "s3://"

  /** The outcome of `list_objects_v2`: the call raised, or it answered with
      the listed keys under `Contents`, which is absent from an empty listing. */
  datatype ListResponse = ListError(message: string) | Listed(contents: Option<seq<string>>)

  /** An uploaded object and the URI `save_results` returns for it. */
  datatype Upload = Upload(key: string, body: string, uri: string)

  /** The positions of the keys that end in `suffix`. */
  function Matches(keys: seq<string>, suffix: string): set<nat> {
    set i: nat | i < |keys| && EndsWith(keys[i], suffix)
  }

  /** One more key adds its own position exactly when it ends in `suffix`. */
  lemma MatchesAppend(keys: seq<string>, key: string, suffix: string)
    ensures |Matches(keys + [key], suffix)| ==
      |Matches(keys, suffix)| + (if EndsWith(key, suffix) then 1 else 0)
  {
    var all := keys + [key];
    assert forall i :: 0 <= i < |keys| ==> all[i] == keys[i];
    assert all[|keys|] == key;
    var before := Matches(keys, suffix);
    assert |keys| !in before;
    if EndsWith(key, suffix) {
      assert Matches(all, suffix) == before + {|keys|};
    } else {
      assert Matches(all, suffix) == before;
    }
  }

  /** The number of keys ending in `suffix`. */
  function CountSuffix(keys: seq<string>, suffix: string): (n: nat)
    ensures n == |Matches(keys, suffix)|
    ensures n <= |keys|
    ensures n == 0 <==> forall i :: 0 <= i < |keys| ==> !EndsWith(keys[i], suffix)
    ensures n == |keys| <==> forall i :: 0 <= i < |keys| ==> EndsWith(keys[i], suffix)
    decreases |keys|
  {
    if |keys| == 0 then 0
    else
      var init, last := keys[..|keys| - 1], keys[|keys| - 1];
      assert forall i :: 0 <= i < |init| ==> init[i] == keys[i];
      assert keys == init + [last];
      MatchesAppend(init, last, suffix);
      CountSuffix(init, suffix) + (if EndsWith(last, suffix) then 1 else 0)
  }

  /** `count_txt_files`: 0 when listing fails or lists nothing, otherwise the
      number of listed keys ending in ".txt". */
  function CountTxtFiles(response: ListResponse): (n: nat)
    ensures response.ListError? ==> n == 0
    ensures response.Listed? && response.contents.None? ==> n == 0
    ensures response.Listed? && response.contents.Some? ==>
      var keys := response.contents.value;
      && n == |Matches(keys, TxtSuffix)|
      && n <= |keys|
      && (n == 0 <==> forall i :: 0 <= i < |keys| ==> !EndsWith(keys[i], TxtSuffix))
      && (n == |keys| <==> forall i :: 0 <= i < |keys| ==> EndsWith(keys[i], TxtSuffix))
  {
    match response
    case ListError(_) => 0
    case Listed(None) => 0
    case Listed(Some(keys)) => CountSuffix(keys, TxtSuffix)
  }

  /** The key a report written at `timestamp` is stored under. */
  function ObjectKey(timestamp: string): string {
    ListingPrefix + Report.FileName(timestamp)
  }

  /** `save_results`: uploads the report under
      "benchmark_results/matrix_multiplication_benchmark_<timestamp>.txt" and
      returns "s3://<bucket>/<key>"; a failing upload raises its error. */
  function SaveResults(bucket: string, timestamp: string, results: seq<Record>, info: DeviceInfo,
                       fmt: Formatter, putError: Option<string>): (r: Result<Upload, string>)
    ensures r.Failure? <==> putError.Some?
    ensures r.Failure? ==> r.error == putError.value
    ensures r.Success? ==>
      && StartsWith(r.value.key, ListingPrefix)
      && EndsWith(r.value.key, TxtSuffix)
      && r.value.key[|ListingPrefix|..] == Report.FileName(timestamp)
      && StartsWith(r.value.uri, UriScheme + bucket + "/")
      && r.value.uri[|UriScheme + bucket + "/"|..] == r.value.key
      && r.value.body == Report.ReportText(results, info, fmt)
  {
    var key := ObjectKey(timestamp);
    var body := Report.ReportText(results, info, fmt);
    if putError.Some? then Failure(putError.value)
    else
      var uri := UriScheme + bucket + "/" + key;
      assert uri[..|UriScheme + bucket + "/"|] == UriScheme + bucket + "/";
      assert uri[|UriScheme + bucket + "/"|..] == key;
      assert key[..|ListingPrefix|] == ListingPrefix;
      assert key[|ListingPrefix|..] == Report.FileName(timestamp);
      assert key[|key| - |TxtSuffix|..] == Report.FileName(timestamp)[|Report.FileName(timestamp)| - |TxtSuffix|..];
      Success(Upload(key, body, uri))
  }

  /** Adding one key to a listing adds one to the count exactly when the key ends in ".txt". */
  lemma CountAppend(keys: seq<string>, key: string)
    ensures CountTxtFiles(Listed(Some(keys + [key]))) ==
      CountTxtFiles(Listed(Some(keys))) + (if EndsWith(key, TxtSuffix) then 1 else 0)
  {
    assert (keys + [key])[..|keys|] == keys;
  }

  /** The bucket's keys after a successful `put_object` of `key`: an object
      already stored under `key` is replaced, a new key joins the listing. */
  function AfterPut(keys: seq<string>, key: string): (after: seq<string>)
    ensures forall k :: k in after <==> k in keys || k == key
    ensures key in keys ==> after == keys
  {
    if key in keys then keys else keys + [key]
  }

  /** Putting a ".txt" key adds one to the count unless it overwrites. */
  lemma PutCounted(keys: seq<string>, key: string)
    requires EndsWith(key, TxtSuffix)
    ensures CountTxtFiles(Listed(Some(AfterPut(keys, key)))) ==
      CountTxtFiles(Listed(Some(keys))) + (if key in keys then 0 else 1)
    ensures CountTxtFiles(Listed(Some(keys + [key]))) == CountTxtFiles(Listed(Some(keys))) + 1
  {
    CountAppend(keys, key);
  }

  /** A folder holding one ".txt" key counts 1. */
  lemma SingleCounted(key: string)
    requires EndsWith(key, TxtSuffix)
    ensures CountTxtFiles(Listed(Some([key]))) == 1
  {
    var single := [key];
    assert single[..0] == [];
    assert CountSuffix(single, TxtSuffix) == CountSuffix([], TxtSuffix) + 1;
  }

  /** A report uploaded by `save_results` is counted by `count_txt_files`: an
      empty folder (no `Contents`) counts 0, and after one upload it counts 1;
      an upload adds one to the count unless a report of the same timestamp
      already stored under that key is overwritten. */
  lemma UploadIsCounted(keys: seq<string>, bucket: string, timestamp: string, results: seq<Record>,
                        info: DeviceInfo, fmt: Formatter)
    ensures var upload := SaveResults(bucket, timestamp, results, info, fmt, None).value;
      && CountTxtFiles(Listed(Some(AfterPut(keys, upload.key)))) ==
           CountTxtFiles(Listed(Some(keys))) + (if upload.key in keys then 0 else 1)
      && CountTxtFiles(Listed(Some(keys + [upload.key]))) == CountTxtFiles(Listed(Some(keys))) + 1
      && CountTxtFiles(Listed(None)) == 0
      && CountTxtFiles(Listed(Some([upload.key]))) == 1
  {
    var upload := SaveResults(bucket, timestamp, results, info, fmt, None);
    PutCounted(keys, upload.value.key);
    SingleCounted(upload.value.key);
  }

  /** Both sinks store the same report text under the same file name. */
  lemma SinksAgree(resultsDir: Option<string>, bucket: string, timestamp: string, results: seq<Record>,
                   info: DeviceInfo, fmt: Formatter)
    ensures var upload := SaveResults(bucket, timestamp, results, info, fmt, None).value;
      var saved := Report.SaveResults(resultsDir, timestamp, results, info, fmt);
      && upload.body == saved.content
      && EndsWith(saved.path, upload.key[|ListingPrefix|..])
  {
  }

  lemma FileNameWithoutSlash(timestamp: string)
    requires '/' !in timestamp
    ensures '/' !in Report.FileName(timestamp)
  {
    var prefix, suffix := Report.FilePrefix, Report.FileSuffix;
    assert '/' !in prefix && '/' !in suffix;
    assert Report.FileName(timestamp) == prefix + timestamp + suffix;
  }

  lemma SplitThree(a: string, b: string, c: string, sep: char)
    requires sep !in a && sep !in b && sep !in c
    ensures Split(a + [sep] + (b + [sep] + c), sep) == [a, b, c]
  {
    SplitAppend(a, b + [sep] + c, sep);
    SplitAppend(b, c, sep);
    SplitWithoutSeparator(a, sep);
    SplitWithoutSeparator(b, sep);
    SplitWithoutSeparator(c, sep);
  }

  lemma ObjectUriSegments(bucket: string, name: string)
    requires '/' !in bucket && '/' !in name
    ensures Split((UriScheme + bucket + "/" + ListingPrefix + name)[|UriScheme|..], '/') == [bucket, "benchmark_results", name]
  {
    var uri := UriScheme + bucket + "/" + ListingPrefix + name;
    var folder := "benchmark_results";
    assert ListingPrefix == folder + ['/'];
    assert '/' !in folder;
    assert uri == UriScheme + (bucket + ['/'] + (folder + ['/'] + name));
    assert uri[|UriScheme|..] == bucket + ['/'] + (folder + ['/'] + name);
    SplitThree(bucket, folder, name, '/');
  }

  /** With a bucket name and timestamp free of '/', the returned URI names the
      bucket, the results folder and the report file as its path segments. */
  lemma UriSegments(bucket: string, timestamp: string, results: seq<Record>, info: DeviceInfo, fmt: Formatter)
    requires '/' !in bucket && '/' !in timestamp
    ensures var uri := SaveResults(bucket, timestamp, results, info, fmt, None).value.uri;
      && StartsWith(uri, UriScheme)
      && Split(uri[|UriScheme|..], '/') == [bucket, "benchmark_results", Report.FileName(timestamp)]
  {
    var name := Report.FileName(timestamp);
    var upload := SaveResults(bucket, timestamp, results, info, fmt, None).value;
    var uri, key := upload.uri, upload.key;
    var head := UriScheme + bucket + "/";
    assert key == key[..|ListingPrefix|] + key[|ListingPrefix|..];
    assert key == ListingPrefix + name;
    assert uri == uri[..|head|] + uri[|head|..];
    assert uri == UriScheme + bucket + "/" + ListingPrefix + name;
    FileNameWithoutSlash(timestamp);
    ObjectUriSegments(bucket, name);
  }
}

=== FILE: text.dfy ===
/** The handful of Python string operations the benchmark relies on:
    `str.split` on one character, `str.join`, `str.strip`, the `^` (centre)
    alignment of a format specification, `str.endswith`, and writing a list of
    lines each followed by a newline. */
module Text {

  /** Python's `str.isspace`, restricted to ASCII: space, tab, line feed,
      vertical tab, form feed, carriage return and the separators 0x1C-0x1F. */
  predicate IsSpace(c: char) {
    c == ' ' || 9 <= c as int <= 13 || 28 <= c as int <= 31
  }

  predicate AllSpace(s: string) {
    forall i :: 0 <= i < |s| ==> IsSpace(s[i])
  }

  /** Neither end of `s` is whitespace, so stripping leaves it unchanged. */
  predicate Trimmed(s: string) {
    |s| == 0 || (!IsSpace(s[0]) && !IsSpace(s[|s| - 1]))
  }

  predicate StartsWith(s: string, prefix: string) {
    |prefix| <= |s| && s[..|prefix|] == prefix
  }

  /** Python's `str.endswith`. */
  predicate EndsWith(s: string, suffix: string) {
    |suffix| <= |s| && s[|s| - |suffix|..] == suffix
  }

  /** The number of occurrences of `c` in `s`. */
  function Occurrences(s: string, c: char): nat
  {
    if |s| == 0 then 0 else (if s[0] == c then 1 else 0) + Occurrences(s[1..], c)
  }

  /** Python's `s.split(sep)` for a one-character separator: the empty string
      splits into one empty part, and every separator starts a new part. */
  function Split(s: string, sep: char): (parts: seq<string>)
    ensures |parts| == Occurrences(s, sep) + 1
    ensures forall i :: 0 <= i < |parts| ==> sep !in parts[i]
    decreases |s|
  {
    if |s| == 0 then [""]
    else
      var rest := Split(s[1..], sep);
      if s[0] == sep then [""] + rest
      else [[s[0]] + rest[0]] + rest[1..]
  }

  /** Python's `delimiter.join(parts)`. */
  function Join(parts: seq<string>, delimiter: string): string
  {
    if |parts| == 0 then ""
    else if |parts| == 1 then parts[0]
    else parts[0] + delimiter + Join(parts[1..], delimiter)
  }

  /** The parts that splitting `Join(parts, pre + [sep] + post)` on `sep` yields:
      every part but the last keeps `pre` on its right, every part but the
      first keeps `post` on its left. */
  function Pad(parts: seq<string>, pre: string, post: string): (padded: seq<string>)
    ensures |padded| == |parts|
  {
    seq(|parts|, i requires 0 <= i < |parts| =>
      (if i == 0 then "" else post) + parts[i] + (if i == |parts| - 1 then "" else pre))
  }

  lemma {:induction false} SplitWithoutSeparator(s: string, sep: char)
    requires sep !in s
    ensures Split(s, sep) == [s]
    decreases |s|
  {
    if |s| > 0 {
      SplitWithoutSeparator(s[1..], sep);
      assert [s[0]] + s[1..] == s;
    }
  }

  /** Splitting at a separator splits the two sides independently. */
  lemma {:induction false} SplitAppend(a: string, b: string, sep: char)
    ensures Split(a + [sep] + b, sep) == Split(a, sep) + Split(b, sep)
    decreases |a|
  {
    var s := a + [sep] + b;
    if |a| == 0 {
      assert s[1..] == b;
    } else {
      assert s[1..] == a[1..] + [sep] + b;
      SplitAppend(a[1..], b, sep);
    }
  }

  /** A prefix free of the separator sticks to the first part. */
  lemma {:induction false} SplitPrefix(p: string, x: string, sep: char)
    requires sep !in p
    ensures Split(p + x, sep) == [p + Split(x, sep)[0]] + Split(x, sep)[1..]
    decreases |p|
  {
    if |p| > 0 {
      assert (p + x)[1..] == p[1..] + x;
      SplitPrefix(p[1..], x, sep);
      assert [p[0]] + (p[1..] + Split(x, sep)[0]) == p + Split(x, sep)[0];
    } else {
      assert p + x == x;
      assert p + Split(x, sep)[0] == Split(x, sep)[0];
      assert Split(x, sep) == [Split(x, sep)[0]] + Split(x, sep)[1..];
    }
  }

  /** Splitting a joined list gives the list back when no part holds the separator. */
  lemma {:induction false} SplitJoin(parts: seq<string>, sep: char)
    requires |parts| >= 1
    requires forall i :: 0 <= i < |parts| ==> sep !in parts[i]
    ensures Split(Join(parts, [sep]), sep) == parts
    decreases |parts|
  {
    SplitWithoutSeparator(parts[0], sep);
    if |parts| > 1 {
      SplitJoin(parts[1..], sep);
      assert Join(parts, [sep]) == parts[0] + [sep] + Join(parts[1..], [sep]);
      SplitAppend(parts[0], Join(parts[1..], [sep]), sep);
      assert [parts[0]] + parts[1..] == parts;
    }
  }

  /** Joining the parts of a split gives the string back. */
  lemma {:induction false} JoinSplit(s: string, sep: char)
    ensures Join(Split(s, sep), [sep]) == s
    decreases |s|
  {
    if |s| > 0 {
      var rest := Split(s[1..], sep);
      JoinSplit(s[1..], sep);
      if s[0] == sep {
        if |rest| == 1 {
          assert Join([""] + rest, [sep]) == "" + [sep] + rest[0];
        } else {
          assert ([""] + rest)[1..] == rest;
        }
        assert [s[0]] + s[1..] == s;
      } else {
        var parts := [[s[0]] + rest[0]] + rest[1..];
        if |rest| == 1 {
          assert Join(rest, [sep]) == rest[0];
        } else {
          assert parts[1..] == rest[1..];
          assert Join(rest, [sep]) == rest[0] + [sep] + Join(rest[1..], [sep]);
        }
        assert [s[0]] + s[1..] == s;
      }
    }
  }

  /** The padded parts of a list of two or more: the head keeps `pre`, and the
      padded tail's first part gains `post`. */
  lemma PadCons(parts: seq<string>, pre: string, post: string)
    requires |parts| >= 2
    ensures var tail := Pad(parts[1..], pre, post);
      Pad(parts, pre, post) == [parts[0] + pre] + ([post + tail[0]] + tail[1..])
  {
    var tail := Pad(parts[1..], pre, post);
    var padded := Pad(parts, pre, post);
    var expected := [parts[0] + pre] + ([post + tail[0]] + tail[1..]);
    assert |expected| == |padded|;
    forall i | 0 <= i < |padded|
      ensures padded[i] == expected[i]
    {
      if i == 1 {
        assert tail[0] == parts[1] + (if |parts| == 2 then "" else pre);
        assert post + tail[0] == post + parts[1] + (if |parts| == 2 then "" else pre);
      } else if i > 1 {
        assert expected[i] == tail[i - 1];
      }
    }
  }

  /** Splitting text joined with a padded delimiter `pre + [sep] + post`
      yields the parts with the padding attached (see `Pad`). */
  lemma {:induction false} SplitJoinPadded(parts: seq<string>, pre: string, sep: char, post: string)
    requires |parts| >= 1
    requires sep !in pre && sep !in post
    requires forall i :: 0 <= i < |parts| ==> sep !in parts[i]
    ensures Split(Join(parts, pre + [sep] + post), sep) == Pad(parts, pre, post)
    decreases |parts|
  {
    var d := pre + [sep] + post;
    if |parts| == 1 {
      SplitWithoutSeparator(parts[0], sep);
      assert Pad(parts, pre, post)[0] == parts[0];
    } else {
      var tail := Join(parts[1..], d);
      SplitJoinPadded(parts[1..], pre, sep, post);
      assert Join(parts, d) == (parts[0] + pre) + [sep] + (post + tail);
      SplitAppend(parts[0] + pre, post + tail, sep);
      assert sep !in parts[0] + pre;
      SplitWithoutSeparator(parts[0] + pre, sep);
      SplitPrefix(post, tail, sep);
      PadCons(parts, pre, post);
    }
  }

  /** Python's `str.lstrip()` (whitespace as in `IsSpace`). */
  function TrimStart(s: string): (r: string)
    ensures |r| <= |s| && r == s[|s| - |r|..]
    ensures |r| == 0 || !IsSpace(r[0])
    decreases |s|
  {
    if |s| > 0 && IsSpace(s[0]) then TrimStart(s[1..]) else s
  }

  /** Python's `str.rstrip()` (whitespace as in `IsSpace`). */
  function TrimEnd(s: string): (r: string)
    ensures |r| <= |s| && r == s[..|r|]
    ensures |r| == 0 || !IsSpace(r[|r| - 1])
    decreases |s|
  {
    if |s| > 0 && IsSpace(s[|s| - 1]) then TrimEnd(s[..|s| - 1]) else s
  }

  /** Python's `str.strip()`: whitespace is dropped from either end until
      neither end is whitespace. */
  function Strip(s: string): (r: string)
    ensures Trimmed(r)
    ensures |r| <= |s|
    decreases |s|
  {
    if |s| > 0 && IsSpace(s[0]) then Strip(s[1..])
    else if |s| > 0 && IsSpace(s[|s| - 1]) then Strip(s[..|s| - 1])
    else s
  }

  /** Stripping is stripping the left end, then the right end. */
  lemma {:induction false} StripTrims(s: string)
    ensures Strip(s) == TrimEnd(TrimStart(s))
    decreases |s|
  {
    if |s| > 0 && IsSpace(s[0]) {
      StripTrims(s[1..]);
    } else if |s| > 0 && IsSpace(s[|s| - 1]) {
      var init := s[..|s| - 1];
      StripTrims(init);
      assert |init| == 0 || init[0] == s[0];
    }
  }

  lemma {:induction false} TrimStartSpacePrefix(p: string, x: string)
    requires AllSpace(p)
    ensures TrimStart(p + x) == TrimStart(x)
    decreases |p|
  {
    if |p| > 0 {
      assert (p + x)[1..] == p[1..] + x;
      TrimStartSpacePrefix(p[1..], x);
    } else {
      assert p + x == x;
    }
  }

  lemma {:induction false} TrimEndSpaceSuffix(x: string, q: string)
    requires AllSpace(q)
    ensures TrimEnd(x + q) == TrimEnd(x)
    decreases |q|
  {
    if |q| > 0 {
      assert (x + q)[..|x + q| - 1] == x + q[..|q| - 1];
      TrimEndSpaceSuffix(x, q[..|q| - 1]);
    } else {
      assert x + q == x;
    }
  }

  lemma TrimsPadded(p: string, t: string, q: string)
    requires AllSpace(p) && AllSpace(q) && Trimmed(t)
    ensures TrimEnd(TrimStart(p + t + q)) == t
  {
    assert p + t + q == p + (t + q);
    TrimStartSpacePrefix(p, t + q);
    if |t| == 0 {
      assert t + q == q + "";
      TrimStartSpacePrefix(q, "");
      assert TrimStart("") == "";
    } else {
      assert (t + q)[0] == t[0];
      assert TrimStart(t + q) == t + q;
      TrimEndSpaceSuffix(t, q);
      assert TrimEnd(t) == t;
    }
  }

  /** Stripping removes exactly the whitespace padding around a trimmed string. */
  lemma StripPadded(p: string, t: string, q: string)
    requires AllSpace(p) && AllSpace(q) && Trimmed(t)
    ensures Strip(p + t + q) == t
  {
    var s := p + t + q;
    StripTrims(s);
    TrimsPadded(p, t, q);
  }

  /** `n` copies of `c` (Python's `c * n`). */
  function Repeat(c: char, n: nat): (r: string)
    ensures |r| == n
    ensures forall i :: 0 <= i < n ==> r[i] == c
  {
    seq(n, _ => c)
  }

  lemma AllSpaceConcat(x: string, y: string)
    requires AllSpace(x) && AllSpace(y)
    ensures AllSpace(x + y)
  {
    forall i | 0 <= i < |x + y|
      ensures IsSpace((x + y)[i])
    {
      if i >= |x| {
        assert (x + y)[i] == y[i - |x|];
      }
    }
  }

  /** Python's `format(s, "^width")`: pad with spaces to `width`, putting the
      smaller half of the slack on the left; never truncates. */
  function Center(s: string, width: nat): (r: string)
    ensures |r| == if |s| >= width then |s| else width
    ensures var left := (|r| - |s|) / 2;
      && r[left..left + |s|] == s
      && forall i :: 0 <= i < |r| && !(left <= i < left + |s|) ==> r[i] == ' '
  {
    if |s| >= width then s
    else
      var slack := width - |s|;
      Repeat(' ', slack / 2) + s + Repeat(' ', slack - slack / 2)
  }

  /** A centred string is its content between two runs of spaces. */
  lemma CenterParts(s: string, width: nat) returns (l: string, t: string)
    ensures Center(s, width) == l + s + t
    ensures AllSpace(l) && AllSpace(t)
  {
    var r := Center(s, width);
    var left := (|r| - |s|) / 2;
    l, t := r[..left], r[left + |s|..];
    assert r == l + s + t;
    assert forall i :: 0 <= i < |t| ==> t[i] == r[left + |s| + i];
  }

  /** Stripping a centred cell gives back its trimmed content. */
  lemma CenterStrip(s: string, width: nat)
    requires Trimmed(s)
    ensures Strip(Center(s, width)) == s
  {
    var l, t := CenterParts(s, width);
    StripPadded(l, s, t);
  }

  /** Centring adds nothing but spaces. */
  lemma CenterExcludes(s: string, width: nat, c: char)
    requires c != ' ' && c !in s
    ensures c !in Center(s, width)
  {
    if |s| < width {
      var slack := width - |s|;
      var l, t := Repeat(' ', slack / 2), Repeat(' ', slack - slack / 2);
      assert Center(s, width) == l + s + t;
      assert c !in l && c !in t;
    }
  }

  /** Lines none of which holds a line feed. */
  predicate SingleLines(lines: seq<string>) {
    forall k :: 0 <= k < |lines| ==> '\n' !in lines[k]
  }

  lemma SingleLinesConcat(a: seq<string>, b: seq<string>)
    requires SingleLines(a) && SingleLines(b)
    ensures SingleLines(a + b)
  {
    forall k | 0 <= k < |a + b|
      ensures '\n' !in (a + b)[k]
    {
      if k >= |a| {
        assert (a + b)[k] == b[k - |a|];
      }
    }
  }

  /** The text Python writes for `lines`, each followed by a line feed. */
  function Unlines(lines: seq<string>): string
  {
    if |lines| == 0 then "" else lines[0] + "\n" + Unlines(lines[1..])
  }

  lemma {:induction false} UnlinesAsJoin(lines: seq<string>)
    ensures Unlines(lines) == Join(lines + [""], "\n")
    decreases |lines|
  {
    if |lines| > 0 {
      UnlinesAsJoin(lines[1..]);
      assert (lines + [""])[1..] == lines[1..] + [""];
    }
  }

  /** Reading a written file back line by line recovers the lines, followed by
      the empty remainder after the final line feed. */
  lemma SplitUnlines(lines: seq<string>)
    requires SingleLines(lines)
    ensures Split(Unlines(lines), '\n') == lines + [""]
  {
    UnlinesAsJoin(lines);
    SplitJoin(lines + [""], '\n');
  }
}

=== FILE: wrappers.dfy ===
/** Optional values and outcomes shared by the whole model. */
module Wrappers {

  /** A value that may be absent: an unset environment variable, an omitted
      argument, a missing `Contents` list. */
  datatype Option<+T> = None | Some(value: T) {

    /** The value, or `default` when absent, like `dict.get(key, default)`. */
    function GetOr(default: T): T {
      match this
      case Some(v) => v
      case None => default
    }
  }

  /** An outcome: the computed value, or the message of the exception the
      program would raise instead. Failures propagate through `:-`. */
  datatype Result<+R, +E> = Success(value: R) | Failure(error: E) {

    predicate IsFailure() {
      Failure?
    }

    function PropagateFailure<U>(): Result<U, E>
      requires Failure?
    {
      Failure(error)
    }

    function Extract(): R
      requires Success?
    {
      value
    }
  }
}
